=== FILE: README.md ===
# Storefront core in Dafny

A model of the deterministic core of a small React storefront (jishnu-nks-2002/e-com).
It covers:

- the products store: its reducer, initial state and fetch-on-mount dispatches;
- the catalogue queries of the Home page, the admin dashboard and the Bestseller section;
- product-form validation and the add/edit submit path;
- the product details page;
- the session state machine and the admin route guard;
- the header's scroll and menu flags;
- the gallery carousel.

Each source file is one module. Four shared modules support them:

- `Options`: the `Option` type.
- `JsText`: ASCII `toLowerCase`/`trim`/`includes`, and the decimal text of an integer.
- `Seqs`: filter, subsequence, de-duplication and a stable insertion sort.
- `Catalog`: the product, its id, the category list, the lookup by route id, and the form record.

Everything is pure functions over immutable datatypes. Event handlers become functions from
state and event to new state. Handlers that dispatch or navigate return the list of actions
or the sequence of effects they perform.

Some browser and library behaviour is passed in as a parameter rather than modelled:

| parameter | stands for |
|---|---|
| `toNumber` | `Number(text)` |
| `isUrl` | "`new URL(text)` does not throw" |
| `titleLeq` | `a.localeCompare(b) <= 0` |
| `numberText` | `String(x)` of a number |
| `clientId` | `Date.now()` |
| `confirmed` | the answer to `confirm(...)` |
| `serverFailed` | whether a mock server call fails |
| `mounted` | whether the provider is still mounted |

Product ids are `IntId(n)` or `NaNId`, and `SameId` is JavaScript's `===` (NaN equals nothing).
The id `Number(routeParam)` yields when the parameter is not an integer is folded into `NaNId`.
No stored id is fractional, so such an id matches nothing either way. Prices are exact reals.

The sort key's comparator is modelled as "a may precede b" (`cmp(a, b) <= 0`) and fed to a
stable insertion sort. `Array.prototype.sort` is stable, and `Seqs.SortByStable` proves the model's
sort is too, so for a consistent comparator both give the same order.

Text is a sequence of Unicode code points. Where the source measures a length, the model counts
UTF-16 code units as JavaScript's `.length` does (`JsText.Utf16Length`).

## Model

| member | source | states |
|---|---|---|
| JsText.Lower | src/pages/Home.jsx:28 | each ASCII capital becomes its lower-case letter, every other character stays, so no capital remains |
| JsText.LowerIdempotent | src/pages/Home.jsx:28 | lower-casing twice is lower-casing once |
| JsText.Utf16Length | src/utils/validators.js:3 | `.length` counts one unit per character, two outside the Basic Multilingual Plane; zero only for the empty text |
| JsText.Utf16LengthChar | src/utils/validators.js:3 | one character is two code units outside the Basic Multilingual Plane and one inside it |
| JsText.Utf16LengthAppend | src/utils/validators.js:3 | the length of a concatenation is the sum of the lengths, so the length is fixed character by character |
| JsText.Trim | src/utils/validators.js:5 | the result is a slice of the input with only white space around it, and starts and ends with a non-space |
| JsText.TrimEmptyIffBlank | src/utils/validators.js:5 | a text trims to empty exactly when every character is white space |
| JsText.IncludesEmpty | src/pages/Home.jsx:28 | every text includes the empty text, so an empty search excludes nothing |
| JsText.IntText | src/pages/ProductDetails.jsx:18 | `String(n)` of an integer: a leading minus sign exactly for negatives, and the digits after any sign read back as the magnitude |
| JsText.IntTextInjective | src/pages/ProductDetails.jsx:18 | two integers with the same decimal text are equal |
| Seqs.Filter | src/pages/Home.jsx:27 | every element that passes is kept as often as the input holds it, every other element is dropped |
| Seqs.FilterIsSubsequence | src/pages/AdminDashboard.jsx:27 | a filter keeps store order: its result is a subsequence of its input |
| Seqs.FilterAllPass | src/pages/Home.jsx:27 | a filter that everything passes returns its input |
| Seqs.FilterTwice | src/context/ProductsContext.jsx:28 | filtering twice with one test is filtering once |
| Seqs.Dedup | src/pages/Home.jsx:23 | `new Set(...)` as a list: same members, each once |
| Seqs.DedupFirstAppearanceOrder | src/pages/Home.jsx:23 | the de-duplicated list is in first-appearance order |
| Seqs.DedupCardinality | src/pages/AdminDashboard.jsx:37 | the de-duplicated list is as long as the set of values |
| Seqs.SortBy | src/pages/Home.jsx:29-40 | the sort returns a permutation of its input |
| Seqs.SortBySorted | src/pages/Home.jsx:29-40 | with a total, transitive comparator the result is sorted |
| Seqs.SortByStable | src/pages/Home.jsx:29-40 | the sort is stable: elements the comparator ties keep their input order |
| Seqs.SortByAllEqual | src/pages/Home.jsx:37-38 | a comparator that ties every pair keeps the input order |
| Catalog.IdText | src/pages/ProductDetails.jsx:18 | `String(id)`: "NaN" exactly for the NaN id; an integer id's text starts with a minus sign exactly when it is negative |
| Catalog.IdTextInjective | src/pages/ProductDetails.jsx:18 | `String(a) === String(b)` on ids holds exactly when the ids are the same integer, or both NaN |
| Catalog.Categories | src/pages/Home.jsx:23 | "all", then each product category exactly once, in first-appearance order |
| Catalog.FindByRouteId | src/pages/ProductDetails.jsx:18 | none exactly when no id renders as the route id; otherwise the first product whose id does |
| ProductsStore.ReplaceById | src/context/ProductsContext.jsx:26 | same length; each element with the payload's id becomes the payload, the rest stay |
| ProductsStore.RemoveById | src/context/ProductsContext.jsx:28 | the survivors are exactly the products without that id, each as often as before, in store order |
| ProductsStore.Reduce | src/context/ProductsContext.jsx:15-31 | each action's effect on products, loading and error, and that nothing else changes; a delete keeps every other product with its multiplicity |
| ProductsStore.Run | src/context/ProductsContext.jsx:15-31 | dispatches in order: without fetch actions loading and error stay, and updates alone keep the product count |
| ProductsStore.RunAppend | src/context/ProductsContext.jsx:15-31 | dispatching two batches in turn is dispatching their concatenation |
| ProductsStore.UpdateIdempotent | src/context/ProductsContext.jsx:26 | updating twice equals updating once |
| ProductsStore.UpdateAbsentIsNoOp | src/context/ProductsContext.jsx:26 | updating an absent id changes nothing |
| ProductsStore.UpdateKeepsIds | src/context/ProductsContext.jsx:26 | an update keeps every id in its position |
| ProductsStore.DeleteIdempotent | src/context/ProductsContext.jsx:28 | deleting twice equals deleting once |
| ProductsStore.DeleteAbsentIsNoOp | src/context/ProductsContext.jsx:28 | deleting an absent id changes nothing |
| ProductsStore.DeleteRemovesId | src/context/ProductsContext.jsx:28 | after a delete no product has that id |
| ProductsStore.FilterKeepsUniqueIds | src/context/ProductsContext.jsx:28 | any filter keeps ids unique |
| ProductsStore.UniqueIdsPreserved | src/context/ProductsContext.jsx:24-28 | unique ids stay unique under every action, given unique fetched ids and a fresh added id |
| ProductsStore.FetchErrorText | src/context/ProductsContext.jsx:46 | the error text is the error's message when it has one, else "Failed to fetch products"; never empty |
| ProductsStore.LoadDispatches | src/context/ProductsContext.jsx:37-51 | FETCH_START first; success dispatched only while mounted; the error dispatched unguarded |
| ProductsStore.LoadSuccess | src/context/ProductsContext.jsx:40-44 | from the initial state a successful load ends with the data, not loading, no error |
| ProductsStore.LoadFailure | src/context/ProductsContext.jsx:40-46 | a failed load ends with no products, not loading, and the error text, mounted or not |
| ProductsStore.LoadAfterUnmount | src/context/ProductsContext.jsx:44 | a success after unmount leaves the store loading with no products |
| Validators.FailsMeaning | src/utils/validators.js:3-7 | each field's check, with the falsy test folded in; lengths in UTF-16 units of the trimmed text |
| Validators.ValidateProduct | src/utils/validators.js:2-8 | a field is a key exactly when its check fails, and its value is that field's message |
| Validators.ValidateProductMeaning | src/utils/validators.js:2-8 | per field: title under 3 UTF-16 units trimmed, price missing or not positive, category blank, image missing or not a URL, description under 10 units trimmed; empty exactly when the form is valid |
| Validators.NoErrorsIffValid | src/utils/validators.js:2-8 | the error map is empty exactly when every field passes |
| Validators.ValidationIsPerField | src/utils/validators.js:3-7 | a field's error depends only on that field |
| Validators.SurrogatePairTitleAccepted | src/utils/validators.js:3 | a title of one emoji and one letter counts three units and passes the title check |
| Home.ListingContents | src/pages/Home.jsx:26-40 | the listing is a permutation of the products passing both filters: membership iff in category and title match |
| Home.Listing | src/pages/Home.jsx:26-40 | `filteredProducts` holds the filtered products, each as often as the filter keeps it |
| Home.FilteredKeepsStoreOrder | src/pages/Home.jsx:26-28 | before sorting, the filtered products are in store order |
| Home.SearchIgnoresCase | src/pages/Home.jsx:28 | the title search ignores the case of the query and of the title |
| Home.Comparator | src/pages/Home.jsx:29-39 | per sort key: the default ties every pair, "price-low" orders by ascending price, "price-high" by descending price, "name" by the collation of titles; every key but "name" gives a total preorder |
| Home.PriceLowSorted | src/pages/Home.jsx:31-32 | "price-low" gives non-decreasing prices |
| Home.PriceHighSorted | src/pages/Home.jsx:33-34 | "price-high" gives non-increasing prices |
| Home.NameSorted | src/pages/Home.jsx:35-36 | "name" gives titles in collation order |
| Home.DefaultKeepsOrder | src/pages/Home.jsx:37-38 | the default sort keeps the filtered store order |
| Home.UnfilteredListingIsStore | src/pages/Home.jsx:26-40 | with "all", "" and the default sort the listing is the store list |
| Home.ClearAllShowsStore | src/pages/Home.jsx:240-244 | after "Clear all" the listing is the whole store list in order |
| Home.ClearAll | src/pages/Home.jsx:240-244 | "Clear all" resets to category "all", an empty search and the default sort, whatever was chosen |
| Home.ProductWord | src/pages/Home.jsx:97 | "product" exactly when one result, "products" otherwise |
| AdminDashboard.Shown | src/pages/AdminDashboard.jsx:27-32 | shown iff the term occurs in the lower-cased title or category, and the selection is "all" or the category; each as often as stored, in store order |
| AdminDashboard.ShownUnfiltered | src/pages/AdminDashboard.jsx:258-261 | with an empty term and "all" every product is shown, in order |
| AdminDashboard.SearchIgnoresCase | src/pages/AdminDashboard.jsx:27-32 | the dashboard search ignores the case of the term, the title and the category |
| AdminDashboard.DashboardStats | src/pages/AdminDashboard.jsx:35-37 | total is the product count; categories is the category list's length minus one |
| AdminDashboard.DeleteClick | src/pages/AdminDashboard.jsx:73-76 | the modal opens and records the product |
| AdminDashboard.ConfirmDelete | src/pages/AdminDashboard.jsx:78-84 | with a target, one DELETE_PRODUCT of its id, then closed with no target; with none, nothing |
| AdminDashboard.CancelDelete | src/pages/AdminDashboard.jsx:444 | the modal closes and nothing is dispatched |
| AdminDashboard.ClickThenConfirmDeletes | src/pages/AdminDashboard.jsx:73-84 | click then confirm removes exactly that id's products, keeping every other product as often as before |
| AdminDashboard.CancelKeepsStore | src/pages/AdminDashboard.jsx:444 | cancelling leaves the store unchanged |
| PriceTotals.Plus | src/pages/AdminDashboard.jsx:41 | `+` adds two numbers and concatenates when either side is a string |
| PriceTotals.ToFixed | src/pages/AdminDashboard.jsx:41 | `toFixed` throws exactly on a string |
| PriceTotals.TotalValue | src/pages/AdminDashboard.jsx:41 | `totalValue` throws exactly when some price is text |
| PriceTotals.StringAbsorbs | src/pages/AdminDashboard.jsx:41 | once the running sum is a string it stays a string |
| PriceTotals.TextPriceBreaksTotalFrom | src/pages/AdminDashboard.jsx:41 | a text price anywhere in the list makes the fold a string |
| PriceTotals.TextPriceBreaksTotal | src/pages/AdminDashboard.jsx:41 | a text price anywhere makes `totalValue` throw |
| PriceTotals.NumericSumFrom | src/pages/AdminDashboard.jsx:41 | over numeric prices the fold is the arithmetic sum |
| PriceTotals.NumericTotal | src/pages/AdminDashboard.jsx:41 | over numeric prices `totalValue` is the sum of the prices |
| PriceTotals.AveragePrice | src/pages/AdminDashboard.jsx:38-40 | 0 for an empty store, else a mean that times the count gives the sum |
| PriceTotals.StoredPriceAsWritten | src/pages/AddEditProduct.jsx:48 | as written, the stored price is text exactly when the form's price is text |
| PriceTotals.AsWrittenAddBreaksTotal | src/pages/AddEditProduct.jsx:47-51 | as written, adding a product whose price was typed makes the dashboard total throw |
| PriceTotals.AsWrittenCounterexample | src/pages/AdminDashboard.jsx:41 | one product at 10 plus a typed price "5" makes the total throw |
| PriceTotals.AddKeepsNumericTotal | src/pages/AdminDashboard.jsx:41 | adding a numeric-priced product adds its price to the total |
| PriceTotals.CorrectedAddKeepsTotal | src/pages/AddEditProduct.jsx:47-51 | with the price converted on submit, the total after an add is the old total plus the entered price |
| AddEditProduct.FormOf | src/pages/AddEditProduct.jsx:22 | the five fields copied from a product, the price as a number |
| AddEditProduct.Prefill | src/pages/AddEditProduct.jsx:19-24 | in edit mode with a match, the form becomes the first match's fields; otherwise the form unchanged |
| AddEditProduct.PrefillThenSubmit | src/pages/AddEditProduct.jsx:19-44 | submitting the untouched prefilled form dispatches one UPDATE_PRODUCT of the matched product, minus its rating |
| AddEditProduct.OnChange | src/pages/AddEditProduct.jsx:26-29 | only the named field changes; a typed price is text |
| AddEditProduct.OnChangeRestores | src/pages/AddEditProduct.jsx:26-29 | changing a text field and changing it back restores the form |
| AddEditProduct.RouteNumberId | src/pages/AddEditProduct.jsx:42 | `Number(id)` as an id: an integer exactly when the route text denotes one |
| AddEditProduct.SubmittedPrice | src/pages/AddEditProduct.jsx:42 | corrected: the submitted price is the positive number the field denotes |
| AddEditProduct.SubmittedProduct | src/pages/AddEditProduct.jsx:42-48 | corrected: the payload has the given id, the form's title, description, image and category, the number the price field denotes, and no rating |
| AddEditProduct.SubmitAction | src/pages/AddEditProduct.jsx:39-52 | corrected: edit gives UPDATE_PRODUCT with the route's number id; add gives ADD_PRODUCT with the clock id; the payload carries the converted price |
| AddEditProduct.SubmitTarget | src/pages/AddEditProduct.jsx:44-52 | edit returns to `/product/` plus the route text; add goes to `/product/` plus a text that renders the new id |
| AddEditProduct.SavingSteps | src/pages/AddEditProduct.jsx:37-60 | in this order: errors recorded, submitting on, server call, the one dispatch, the one navigation, submitting off |
| AddEditProduct.HandleSubmit | src/pages/AddEditProduct.jsx:31-61 | corrected: errors always recorded; invalid form: nothing else; valid: submitting on, then the server call, the one dispatch and the one navigation in that order, then submitting off; dispatch and navigation per mode; the dispatched price is converted |
| AddEditProduct.ServerFailureIrrelevant | src/pages/AddEditProduct.jsx:41-50 | a failed server call changes neither dispatches nor navigation |
| AddEditProduct.AddDispatches | src/pages/AddEditProduct.jsx:46-52 | a valid add dispatches exactly one ADD_PRODUCT, of the form's product with the clock id, and navigates to its page |
| AddEditProduct.AddThenView | src/pages/AddEditProduct.jsx:47-52 | after an add, looking up the navigation target's id finds the new product; the old list follows it |
| AddEditProduct.EditDispatches | src/pages/AddEditProduct.jsx:39-44 | a valid edit of an integer route dispatches exactly one UPDATE_PRODUCT, of the form's product with that id, and navigates back |
| AddEditProduct.ReplaceKeepsFirstMatch | src/context/ProductsContext.jsx:26 | replacing by the first match's integer id keeps that match first and puts the payload there |
| AddEditProduct.SubmitUnchangedForm | src/pages/AddEditProduct.jsx:39-44 | submitting a product's own form unchanged on its edit page dispatches that product without its rating |
| AddEditProduct.UpdateThenFind | src/context/ProductsContext.jsx:26 | after an update with id n, looking up the text of n finds the update |
| AddEditProduct.EditThenView | src/pages/AddEditProduct.jsx:42-44 | after an edit, the page navigated to shows the edited product |
| ProductDetails.Decide | src/pages/ProductDetails.jsx:15-20 | loading first, then error, then not found exactly when no id matches, else the first match's view; admin controls iff admin |
| ProductDetails.HandleDelete | src/pages/ProductDetails.jsx:22-26 | confirmed: one DELETE_PRODUCT and go home; declined: nothing |
| ProductDetails.DeclineKeepsStore | src/pages/ProductDetails.jsx:23 | declining leaves the store unchanged |
| ProductDetails.DeleteThenNotFound | src/pages/ProductDetails.jsx:22-26 | deleting the shown product with an integer id makes its route show "not found" |
| ProductDetails.NaNIdSurvivesDelete | src/context/ProductsContext.jsx:28 | a product with a NaN id survives its own delete |
| Bestseller.Bestsellers | src/components/Bestseller.jsx:12 | the first min(4, n) products, position by position |
| Bestseller.SectionShown | src/components/Bestseller.jsx:37 | the section renders exactly when the store is non-empty |
| Bestseller.Cards | src/components/Bestseller.jsx:97-99 | card k shows product k with index k, so badges run 1..min(4, n) |
| Bestseller.BestsellersArePrefix | src/components/Bestseller.jsx:12 | the selection is a prefix of the store list |
| Bestseller.BestsellersLeadHomeListing | src/components/Bestseller.jsx:12 | the selection heads Home's unfiltered default listing |
| Bestseller.AddedProductLeads | src/components/Bestseller.jsx:12 | a newly added product becomes the first bestseller and the rest shift down |
| Auth.Mount | src/context/AuthContext.jsx:6-7 | no user and loading at first |
| Auth.Restore | src/context/AuthContext.jsx:9-16 | a stored record becomes the user; loading ends |
| Auth.Login | src/context/AuthContext.jsx:18-28 | success iff admin/admin123, setting user and storage to the admin; failure: "Invalid credentials", nothing changes |
| Auth.Logout | src/context/AuthContext.jsx:30-33 | user and storage cleared |
| Auth.IsAdmin | src/context/AuthContext.jsx:35 | a user is an admin exactly when its role is "admin"; no user means no admin |
| Auth.AdminAfterLogin | src/context/AuthContext.jsx:18-35 | after a login attempt the user is an admin iff the credentials were right or an admin was already in |
| Auth.RestoreAgrees | src/context/AuthContext.jsx:9-16 | after the mount effect, user and storage agree |
| Auth.SessionAgrees | src/context/AuthContext.jsx:18-33 | user and storage keep agreeing across any logins and logouts |
| Auth.ReloadRestoresSession | src/context/AuthContext.jsx:9-33 | a reload after any calls restores the same user |
| ProtectedRoute.Guard | src/components/ProtectedRoute.jsx:10-18 | loading view while loading; else a replacing redirect to /login from the location unless admin; children iff admin and not loading |
| ProtectedRoute.LoginOpensRoute | src/components/ProtectedRoute.jsx:14-18 | after mount and a correct login the children render |
| ProtectedRoute.RestoredRoleDecides | src/components/ProtectedRoute.jsx:14-18 | after the mount effect restores a stored user, the children render exactly when its role is "admin"; any other role is redirected to /login |
| ProtectedRoute.LogoutClosesRoute | src/components/ProtectedRoute.jsx:14-15 | after logout the route redirects |
| Header.OnScroll | src/components/Header.jsx:20-32 | scrolled iff y > 50; hidden iff moving down past 100; last position recorded |
| Header.ScrollsFollowLast | src/components/Header.jsx:20-32 | after any scroll run, the flags follow the last position and the one before it |
| Header.NearTopVisible | src/components/Header.jsx:25-29 | at a scroll position of 100 or less the header is visible |
| Header.OnResize | src/components/Header.jsx:52-56 | width 768 or more closes the menu; narrower changes nothing |
| Header.ToggleMenu | src/components/Header.jsx:141 | the menu button flips the menu and nothing else |
| Header.ToggleTwice | src/components/Header.jsx:141 | toggling twice restores the state |
| Header.CloseMenu | src/components/Header.jsx:154 | a menu link closes the menu and nothing else |
| Header.HandleLogout | src/components/Header.jsx:62-66 | logout clears the session, goes home and closes the menu |
| Header.AvatarLetter | src/components/Header.jsx:131 | one character, the username's first up to case, never a lower-case letter; empty for an empty name |
| Header.AvatarIgnoresCase | src/components/Header.jsx:131 | names whose first letters differ only in case get the same avatar; the admin's is "A" |
| Gallery.NextSlide | src/components/Gallery.jsx:88-90 | the next index, wrapping from the last slide to 0 |
| Gallery.PrevSlide | src/components/Gallery.jsx:92-94 | the previous index, wrapping from 0 to the last slide |
| Gallery.PrevUndoesNext | src/components/Gallery.jsx:88-94 | prev after next and next after prev return the index |
| Gallery.AdvanceIsModular | src/components/Gallery.jsx:88-90 | k next steps land on (i + k) mod 4 |
| Gallery.FullCycle | src/components/Gallery.jsx:88-90 | four next steps return to the start |
| Gallery.GoToSlide | src/components/Gallery.jsx:96-100 | a thumbnail shows its slide and pauses autoplay |
| Gallery.Counter | src/components/Gallery.jsx:244 | the counter is the index plus one, within 1..4 |

## Left out

- Network: the axios client in `src/api/productsApi.js` is not part of this model. A fetch is its outcome (`FetchOutcome`), and a mock server call is whether it failed.
- Timers: the gallery's 5-second autoplay and its 3-second resume after `goToSlide` are left out, because they are time-driven. `GoToSlide` only pauses autoplay.
- Banner, ProductCard's hover tilt and star count, CustomCursor, Footer, and every gsap or framer-motion animation are left out: they are presentation only.
- Routing, JSX markup, `Loading`, `ErrorBox` and `NotFound` are left out. A view is a constructor of a view datatype.
- `localStorage` and `JSON.parse`/`stringify` are left out. Storage is an `Option<User>` slot holding the record itself, so a corrupt stored string cannot occur.
- `Number(...)`, `new URL(...)`, `localeCompare` and number-to-text conversion are left out; they are the oracle parameters listed above.
- Floating point is left out: prices are exact reals, and `toFixed(2)` rounding is not modelled.
- Validators.PositivePrice: `NumberValue` has no infinities, so the oracle cannot return `Infinity` for a price typed as "Infinity" or "1e400". `Number(...)` gives Infinity there, and the source's price check accepts it because it is neither NaN nor at most 0. The model has no such price.
- Ids beyond the integers are left out: infinities and numbers of 1e21 or more, which JavaScript renders in exponent form.
- JsText.Lower: lower-cases ASCII letters only, because full Unicode case mapping is not modelled. The same holds for `UpperChar` in `Header.AvatarLetter`.
- Header.AvatarLetter: takes the first code point. `charAt(0)` takes the first UTF-16 unit, so for a name beginning outside the Basic Multilingual Plane the source shows a lone surrogate, which a Dafny `char` cannot hold.
- JsText.Trim: strips only ASCII white space (space, tab, LF, CR, VT, FF), not the Unicode spaces JavaScript's `trim` also removes.
- The reducer's throw on an unknown action type is left out: the closed `Action` datatype makes such an action unrepresentable.
- The `catch` with `alert` in `handleSubmit` is left out: both server calls have their failures swallowed, so nothing left in the `try` can throw.
- Home.NameSorted: proved only for a collation the caller asserts is a total preorder, since `localeCompare` is an oracle.
- AddEditProduct.HandleSubmit: the dispatched payload carries the price as a number, which is the corrected behaviour. As written, `{ id, ...form }` stores the typed text, and the store's `Product.price` (a real) cannot hold text. The as-written text price is modelled only in `PriceTotals` (`StoredPriceAsWritten`, `AsWrittenAddBreaksTotal`). Every lemma built on it follows the corrected behaviour too.
- AddEditProduct.SubmittedProduct: carries the number the price field denotes, the corrected behaviour; as written, `{ id, ...form }` spreads the typed text, which only `PriceTotals.StoredPriceAsWritten` models.
- AddEditProduct.SubmitAction: its payload is `SubmittedProduct`, so it carries the converted price rather than the typed text, for the same reason.
- AddEditProduct.Prefill: models one run of the effect. The effect re-runs whenever the store's products change, which re-copies the product over unsaved edits; that sequencing is not modelled.
- The `hoveredIndex` of the gallery, the view-mode toggles of Home and the dashboard, and the search boxes' own clear buttons are left out; they affect presentation only.

## Findings

| source | as written | input that shows it | evidently intended | confidence | as-written member | corrected member |
|---|---|---|---|---|---|---|
| src/pages/AddEditProduct.jsx:48 | `{ id: clientId, ...form }` stores the price field as typed, a string. `products.reduce((sum, p) => sum + p.price, 0).toFixed(2)` at src/pages/AdminDashboard.jsx:41 then concatenates instead of adding, and calls `toFixed` on a string, which throws a TypeError while the dashboard renders. An edit that retypes the price does the same. | a store holding one product priced 10; add a product whose price is typed as "5"; open the dashboard | store `Number(form.price)`, so the total is the old total plus the new price | high; not executed | PriceTotals.AsWrittenAddBreaksTotal | PriceTotals.CorrectedAddKeepsTotal |

=== FILE: add_edit_product.dfy ===
/** The add/edit product page: the empty form, the prefill from the store in
    edit mode, the change handler, and the submit handler as the sequence of
    effects it performs. `Number(text)` and `new URL(text)` are the oracles
    `toNumber` and `isUrl`; `Date.now()` is the parameter `clientId`; the
    mock server call is reduced to whether it failed. */
module AddEditProduct {

  import opened Options
  import opened JsText
  import opened Catalog
  import opened ProductsStore
  import opened Validators

  const EmptyForm := ProductForm("", PriceText(""), "", "", "")

  /** The form fields copied from a product; the price stays a number. */
  function FormOf(p: Product): (f: ProductForm)
    ensures f.title == p.title && f.price == PriceNumber(p.price) && f.description == p.description
    ensures f.image == p.image && f.category == p.category
  {
    ProductForm(p.title, PriceNumber(p.price), p.description, p.image, p.category)
  }

  /** The prefill effect: in edit mode, when a product's id renders as the
      route parameter, the form takes that product's fields; otherwise the
      form is left as it is. */
  function Prefill(editMode: bool, routeId: string, products: seq<Product>, form: ProductForm): (r: ProductForm)
    ensures !editMode ==> r == form
    ensures (forall i :: 0 <= i < |products| ==> IdText(products[i].id) != routeId) ==> r == form
    ensures editMode && r != form ==>
      exists k :: FirstMatch(products, routeId, k) && r == FormOf(products[k])
    ensures editMode && (exists k :: FirstMatch(products, routeId, k)) ==>
      exists k :: FirstMatch(products, routeId, k) && r == FormOf(products[k])
  {
    if editMode then
      match FindByRouteId(products, routeId)
      case Some(p) => FormOf(p)
      case None => form
    else form
  }

  /** `setForm(prev => ({...prev, [name]: value}))`: only the named field
      changes, and an edited price becomes text. */
  function OnChange(form: ProductForm, name: FieldName, value: string): (r: ProductForm)
    ensures r.title == (if name == Title then value else form.title)
    ensures r.price == (if name == Price then PriceText(value) else form.price)
    ensures r.description == (if name == Description then value else form.description)
    ensures r.image == (if name == Image then value else form.image)
    ensures r.category == (if name == Category then value else form.category)
  {
    match name
    case Title => form.(title := value)
    case Price => form.(price := PriceText(value))
    case Description => form.(description := value)
    case Image => form.(image := value)
    case Category => form.(category := value)
  }

  /** Changing a field and then changing it back restores the form. */
  lemma OnChangeRestores(form: ProductForm, name: FieldName, value: string)
    requires name != Price
    ensures var before := match name
        case Title => form.title
        case Description => form.description
        case Image => form.image
        case Category => form.category
        case Price => "";
      OnChange(OnChange(form, name, value), name, before) == form
  {
  }

  /** The page's route: `/add`, or `/edit/:id` with its parameter. */
  datatype Mode = AddMode | EditMode(routeId: string)

  /** `Number(id)` used as a product id: an integer, or NaN for anything else. */
  function RouteNumberId(routeId: string, toNumber: string -> NumberValue): (id: ProductId)
    ensures id.IntId? ==> toNumber(routeId) == Finite(id.n as real)
    ensures toNumber(routeId).Finite? && toNumber(routeId).x == toNumber(routeId).x.Floor as real ==> id.IntId?
  {
    match toNumber(routeId)
    case Finite(x) => if x == x.Floor as real then IntId(x.Floor) else NaNId
    case NaN => NaNId
  }

  /** The price of the submitted product, converted to a number. The source
      stores the form's value unconverted; see the price-total finding. */
  function SubmittedPrice(price: PriceField, toNumber: string -> NumberValue): (x: real)
    requires PositivePrice(price, toNumber)
    ensures PriceValue(price, toNumber) == Finite(x) && x > 0.0
  {
    PriceValue(price, toNumber).x
  }

  /** The product carries exactly the five form fields, its price being the
      number the price field denotes, and no rating. */
  predicate CarriesForm(p: Product, form: ProductForm, toNumber: string -> NumberValue) {
    && p.title == form.title
    && PriceValue(form.price, toNumber) == Finite(p.price)
    && p.description == form.description
    && p.image == form.image
    && p.category == form.category
    && p.rating.None?
  }

  /** `{ id, ...form }`, with the price converted. */
  function SubmittedProduct(id: ProductId, form: ProductForm, toNumber: string -> NumberValue): (p: Product)
    requires PositivePrice(form.price, toNumber)
    ensures p.id == id && CarriesForm(p, form, toNumber)
  {
    Product(id, form.title, SubmittedPrice(form.price, toNumber), form.description, form.image, form.category, None)
  }

  /** One observable effect of the submit handler, in the order it happens. */
  datatype SubmitEvent =
    | SetErrors(errors: map<FieldName, string>)
    | SetSubmitting(on: bool)
    | ServerCall(failed: bool)
    | Dispatch(action: Action)
    | Navigate(path: string)

  /** The store actions of an effect sequence, in order. */
  function Dispatched(trace: seq<SubmitEvent>): (r: seq<Action>)
    ensures forall a :: a in r <==> Dispatch(a) in trace
  {
    if |trace| == 0 then []
    else (if trace[0].Dispatch? then [trace[0].action] else []) + Dispatched(trace[1..])
  }

  /** The navigation targets of an effect sequence, in order. */
  function Navigations(trace: seq<SubmitEvent>): (r: seq<string>)
    ensures forall p :: p in r <==> Navigate(p) in trace
  {
    if |trace| == 0 then []
    else (if trace[0].Navigate? then [trace[0].path] else []) + Navigations(trace[1..])
  }

  lemma ProjectionsCons(e: SubmitEvent, rest: seq<SubmitEvent>)
    ensures Dispatched([e] + rest) == (if e.Dispatch? then [e.action] else []) + Dispatched(rest)
    ensures Navigations([e] + rest) == (if e.Navigate? then [e.path] else []) + Navigations(rest)
  {
    assert ([e] + rest)[0] == e;
    assert ([e] + rest)[1..] == rest;
  }

  /** The store action the submit dispatches: an update for the route's id,
      or an add for the clock's id. */
  function SubmitAction(mode: Mode, form: ProductForm, clientId: nat, toNumber: string -> NumberValue): (a: Action)
    requires PositivePrice(form.price, toNumber)
    ensures mode.AddMode? ==> a.AddProduct? && a.product.id == IntId(clientId)
    ensures mode.EditMode? ==> a.UpdateProduct? && a.product.id == RouteNumberId(mode.routeId, toNumber)
    ensures (a.AddProduct? || a.UpdateProduct?) && CarriesForm(a.product, form, toNumber)
  {
    match mode
    case EditMode(routeId) => UpdateProduct(SubmittedProduct(RouteNumberId(routeId, toNumber), form, toNumber))
    case AddMode => AddProduct(SubmittedProduct(IntId(clientId), form, toNumber))
  }

  /** The page shown after saving: the route's own text, or the new id's
      text, which the details page's lookup resolves back to that id. */
  function SubmitTarget(mode: Mode, clientId: nat): (path: string)
    ensures mode.EditMode? ==> path == "/product/" + mode.routeId
    ensures mode.AddMode? ==> |path| >= 9 && path[..9] == "/product/" && IdText(IntId(clientId)) == path[9..]
  {
    match mode
    case EditMode(routeId) => "/product/" + routeId
    case AddMode => "/product/" + IntText(clientId)
  }

  /** The effects of a submit that passed validation. */
  function SavingSteps(errors: map<FieldName, string>, serverFailed: bool, a: Action, path: string)
    : (trace: seq<SubmitEvent>)
    ensures |trace| == 6 && trace[0] == SetErrors(errors)
    ensures trace[1] == SetSubmitting(true) && trace[5] == SetSubmitting(false)
    ensures trace[2] == ServerCall(serverFailed) && trace[3] == Dispatch(a) && trace[4] == Navigate(path)
    ensures Dispatched(trace) == [a] && Navigations(trace) == [path]
  {
    var t5 := [SetSubmitting(false)];
    var t4 := [Navigate(path)] + t5;
    var t3 := [Dispatch(a)] + t4;
    var t2 := [ServerCall(serverFailed)] + t3;
    var t1 := [SetSubmitting(true)] + t2;
    ProjectionsCons(SetSubmitting(false), []);
    assert t5 == [SetSubmitting(false)] + [];
    ProjectionsCons(Navigate(path), t5);
    ProjectionsCons(Dispatch(a), t4);
    ProjectionsCons(ServerCall(serverFailed), t3);
    ProjectionsCons(SetSubmitting(true), t2);
    ProjectionsCons(SetErrors(errors), t1);
    [SetErrors(errors)] + t1
  }

  /** `handleSubmit`: the errors are always recorded; with any error nothing
      else happens. Otherwise the button is disabled, the server is called,
      exactly one store action is dispatched whether or not the call failed,
      the page navigates once, and the button is enabled again last. */
  function HandleSubmit(mode: Mode, form: ProductForm, clientId: nat, serverFailed: bool,
                        toNumber: string -> NumberValue, isUrl: string -> bool): (trace: seq<SubmitEvent>)
    ensures |trace| >= 1 && trace[0] == SetErrors(ValidateProduct(form, toNumber, isUrl))
    ensures !FormValid(form, toNumber, isUrl) ==> Dispatched(trace) == [] && Navigations(trace) == [] && |trace| == 1
    ensures FormValid(form, toNumber, isUrl) ==>
      && |trace| == 6
      && trace[1] == SetSubmitting(true) && trace[5] == SetSubmitting(false)
      && trace[2] == ServerCall(serverFailed) && trace[3].Dispatch? && trace[4].Navigate?
      && |Dispatched(trace)| == 1
      && |Navigations(trace)| == 1
    ensures FormValid(form, toNumber, isUrl) && mode.AddMode? ==>
      var a := Dispatched(trace)[0];
      && a.AddProduct? && a.product.id == IntId(clientId) && CarriesForm(a.product, form, toNumber)
      && Navigations(trace) == ["/product/" + IntText(clientId)]
    ensures FormValid(form, toNumber, isUrl) && mode.EditMode? ==>
      var a := Dispatched(trace)[0];
      && a.UpdateProduct? && a.product.id == RouteNumberId(mode.routeId, toNumber)
      && CarriesForm(a.product, form, toNumber)
      && Navigations(trace) == ["/product/" + mode.routeId]
  {
    var errors := ValidateProduct(form, toNumber, isUrl);
    NoErrorsIffValid(form, toNumber, isUrl);
    if errors != map[] then
      ProjectionsCons(SetErrors(errors), []);
      assert [SetErrors(errors)] == [SetErrors(errors)] + [];
      [SetErrors(errors)]
    else
      SavingSteps(errors, serverFailed, SubmitAction(mode, form, clientId, toNumber), SubmitTarget(mode, clientId))
  }

  /** Whether the mock server call fails changes neither the dispatched
      actions nor the navigation. */
  lemma ServerFailureIrrelevant(mode: Mode, form: ProductForm, clientId: nat,
                                toNumber: string -> NumberValue, isUrl: string -> bool)
    ensures var ok := HandleSubmit(mode, form, clientId, false, toNumber, isUrl);
      var failed := HandleSubmit(mode, form, clientId, true, toNumber, isUrl);
      Dispatched(ok) == Dispatched(failed) && Navigations(ok) == Navigations(failed)
  {
  }

  /** A valid add dispatches one ADD_PRODUCT of a product with the clock's
      id and the form's fields, and navigates to that id's page. */
  lemma AddDispatches(form: ProductForm, clientId: nat, serverFailed: bool,
                      toNumber: string -> NumberValue, isUrl: string -> bool)
    requires FormValid(form, toNumber, isUrl)
    ensures var trace := HandleSubmit(AddMode, form, clientId, serverFailed, toNumber, isUrl);
      && |Dispatched(trace)| == 1
      && Dispatched(trace)[0].AddProduct?
      && Dispatched(trace)[0].product.id == IntId(clientId)
      && CarriesForm(Dispatched(trace)[0].product, form, toNumber)
      && Navigations(trace) == ["/product/" + IntText(clientId)]
      && Dispatched(trace) == [AddProduct(SubmittedProduct(IntId(clientId), form, toNumber))]
  {
  }

  /** Adding a product and following the navigation shows it: the details
      lookup of the new id's text finds a product with that id carrying the
      form's fields, and the rest of the store is unchanged behind it. */
  lemma AddThenView(s: StoreState, form: ProductForm, clientId: nat, serverFailed: bool,
                    toNumber: string -> NumberValue, isUrl: string -> bool)
    requires FormValid(form, toNumber, isUrl)
    ensures var trace := HandleSubmit(AddMode, form, clientId, serverFailed, toNumber, isUrl);
      var after := Run(s, Dispatched(trace));
      var found := FindByRouteId(after.products, IntText(clientId));
      && Navigations(trace) == ["/product/" + IntText(clientId)]
      && found.Some? && found.value.id == IntId(clientId) && CarriesForm(found.value, form, toNumber)
      && after.products[1..] == s.products
  {
    var a := AddProduct(SubmittedProduct(IntId(clientId), form, toNumber));
    AddDispatches(form, clientId, serverFailed, toNumber, isUrl);
    RunOne(s, a);
    var ps := Reduce(s, a).products;
    assert FirstMatch(ps, IntText(clientId), 0);
    var found := FindByRouteId(ps, IntText(clientId));
    var k :| FirstMatch(ps, IntText(clientId), k) && ps[k] == found.value;
    FirstMatchUnique(ps, IntText(clientId), 0, k);
  }

  /** Replacing by the id of the first match keeps the first match in place
      and puts the replacement there. */
  lemma ReplaceKeepsFirstMatch(ps: seq<Product>, q: Product, route: string, k0: int)
    requires FirstMatch(ps, route, k0) && q.id.IntId? && IdText(q.id) == route
    ensures FirstMatch(ReplaceById(ps, q), route, k0) && ReplaceById(ps, q)[k0] == q
  {
    var r := ReplaceById(ps, q);
    IdTextInjective(ps[k0].id, q.id);
    forall j | 0 <= j < k0
      ensures IdText(r[j].id) != route
    {
    }
  }

  /** A valid edit of `/edit/<n>` dispatches one UPDATE_PRODUCT of a product
      with id `n` and the form's fields, and navigates back to that page. */
  lemma EditDispatches(form: ProductForm, n: int, serverFailed: bool,
                       toNumber: string -> NumberValue, isUrl: string -> bool)
    requires FormValid(form, toNumber, isUrl)
    requires toNumber(IntText(n)) == Finite(n as real)
    ensures var trace := HandleSubmit(EditMode(IntText(n)), form, 0, serverFailed, toNumber, isUrl);
      && |Dispatched(trace)| == 1
      && Dispatched(trace)[0].UpdateProduct?
      && Dispatched(trace)[0].product.id == IntId(n)
      && CarriesForm(Dispatched(trace)[0].product, form, toNumber)
      && Navigations(trace) == ["/product/" + IntText(n)]
      && Dispatched(trace) == [UpdateProduct(SubmittedProduct(IntId(n), form, toNumber))]
  {
    assert RouteNumberId(IntText(n), toNumber) == IntId(n);
    assert SubmitAction(EditMode(IntText(n)), form, 0, toNumber) == UpdateProduct(SubmittedProduct(IntId(n), form, toNumber));
  }

  /** Updating with a product of id `n`, when some product's id renders as
      the text of `n`, makes the lookup of that text find the update. */
  lemma UpdateThenFind(s: StoreState, q: Product, n: int)
    requires q.id == IntId(n)
    requires FindByRouteId(s.products, IntText(n)).Some?
    ensures FindByRouteId(Reduce(s, UpdateProduct(q)).products, IntText(n)) == Some(q)
  {
    var route := IntText(n);
    var k0 :| FirstMatch(s.products, route, k0) && s.products[k0] == FindByRouteId(s.products, route).value;
    ReplaceKeepsFirstMatch(s.products, q, route, k0);
    var ps := Reduce(s, UpdateProduct(q)).products;
    var found := FindByRouteId(ps, route);
    var k :| FirstMatch(ps, route, k) && ps[k] == found.value;
    FirstMatchUnique(ps, route, k0, k);
  }

  /** Editing the product at `/edit/<n>` and following the navigation shows
      the edit: the details lookup finds a product with id `n` carrying the
      form's fields. */
  lemma EditThenView(s: StoreState, form: ProductForm, n: int, serverFailed: bool,
                     toNumber: string -> NumberValue, isUrl: string -> bool)
    requires FormValid(form, toNumber, isUrl)
    requires toNumber(IntText(n)) == Finite(n as real)
    requires FindByRouteId(s.products, IntText(n)).Some?
    ensures var trace := HandleSubmit(EditMode(IntText(n)), form, 0, serverFailed, toNumber, isUrl);
      var after := Run(s, Dispatched(trace));
      var found := FindByRouteId(after.products, IntText(n));
      && Navigations(trace) == ["/product/" + IntText(n)]
      && found.Some? && found.value.id == IntId(n) && CarriesForm(found.value, form, toNumber)
  {
    var q := SubmittedProduct(IntId(n), form, toNumber);
    EditDispatches(form, n, serverFailed, toNumber, isUrl);
    RunOne(s, UpdateProduct(q));
    UpdateThenFind(s, q, n);
  }

  /** Opening `/edit/<n>` on a product and submitting the prefilled form
      untouched writes the product back as it was, except that its rating is
      lost: the payload holds the id and the five form fields only. */
  lemma PrefillThenSubmit(products: seq<Product>, n: int, k: int, serverFailed: bool,
                          toNumber: string -> NumberValue, isUrl: string -> bool)
    requires FirstMatch(products, IntText(n), k)
    requires toNumber(IntText(n)) == Finite(n as real)
    requires FormValid(FormOf(products[k]), toNumber, isUrl)
    ensures var form := Prefill(true, IntText(n), products, EmptyForm);
      var trace := HandleSubmit(EditMode(IntText(n)), form, 0, serverFailed, toNumber, isUrl);
      && form == FormOf(products[k])
      && Dispatched(trace) == [UpdateProduct(products[k].(rating := None))]
  {
    var p := products[k];
    var form := Prefill(true, IntText(n), products, EmptyForm);
    var k' :| FirstMatch(products, IntText(n), k') && form == FormOf(products[k']);
    FirstMatchUnique(products, IntText(n), k, k');
    IdTextInjective(p.id, IntId(n));
    SubmitUnchangedForm(p, n, serverFailed, toNumber, isUrl);
  }

  /** Submitting the form of product `p` unchanged, on the edit page of its
      id, dispatches `p` without its rating. */
  lemma SubmitUnchangedForm(p: Product, n: int, serverFailed: bool,
                            toNumber: string -> NumberValue, isUrl: string -> bool)
    requires p.id == IntId(n)
    requires toNumber(IntText(n)) == Finite(n as real)
    requires FormValid(FormOf(p), toNumber, isUrl)
    ensures Dispatched(HandleSubmit(EditMode(IntText(n)), FormOf(p), 0, serverFailed, toNumber, isUrl))
      == [UpdateProduct(p.(rating := None))]
  {
    EditDispatches(FormOf(p), n, serverFailed, toNumber, isUrl);
    assert SubmittedProduct(IntId(n), FormOf(p), toNumber) == p.(rating := None);
  }

}

=== FILE: admin_dashboard.dfy ===
/** The admin dashboard: its search-and-category listing, its statistics,
    and the delete-confirmation modal. */
module AdminDashboard {

  import opened Options
  import opened JsText
  import opened Seqs
  import opened Catalog
  import opened ProductsStore

  /** The search term occurs in the lower-cased title or the lower-cased category. */
  predicate MatchesSearch(p: Product, term: string) {
    Includes(Lower(p.title), Lower(term)) || Includes(Lower(p.category), Lower(term))
  }

  /** The dashboard search ignores case: a term matches exactly when its
      lower-cased form does, and products whose titles and categories agree
      up to case match the same terms. */
  lemma SearchIgnoresCase(p: Product, q: Product, term: string)
    requires Lower(p.title) == Lower(q.title) && Lower(p.category) == Lower(q.category)
    ensures MatchesSearch(p, term) <==> MatchesSearch(p, Lower(term))
    ensures MatchesSearch(p, term) <==> MatchesSearch(q, term)
  {
    LowerIdempotent(term);
  }

  predicate MatchesCategory(p: Product, selected: string) {
    selected == "all" || p.category == selected
  }

  function ShownFilter(term: string, selected: string): Product -> bool {
    (p: Product) => MatchesSearch(p, term) && MatchesCategory(p, selected)
  }

  /** `filteredProducts`: the products that match both the search and the
      selected category, in store order. */
  function Shown(products: seq<Product>, term: string, selected: string): (r: seq<Product>)
    ensures forall p :: p in r <==> p in products && MatchesSearch(p, term) && MatchesCategory(p, selected)
    ensures forall p :: multiset(r)[p] ==
                        if MatchesSearch(p, term) && MatchesCategory(p, selected) then multiset(products)[p] else 0
    ensures IsSubsequence(r, products)
    ensures |r| <= |products|
  {
    FilterIsSubsequence(products, ShownFilter(term, selected));
    Filter(products, ShownFilter(term, selected))
  }

  /** With an empty search and "all" ("Clear filters"), every product is shown in order. */
  lemma ShownUnfiltered(products: seq<Product>)
    ensures Shown(products, "", "all") == products
  {
    forall i | 0 <= i < |products|
      ensures ShownFilter("", "all")(products[i])
    {
      assert Lower("") == "";
      IncludesEmpty(Lower(products[i].title));
    }
    FilterAllPass(products, ShownFilter("", "all"));
  }

  datatype Stats = Stats(total: nat, categories: nat)

  /** `stats.total` and `stats.categories` (the size of the category set). */
  function DashboardStats(products: seq<Product>): (r: Stats)
    ensures r.total == |products|
    ensures r.categories == |Categories(products)| - 1
  {
    DedupCardinality(CategoryOf(products));
    Stats(|products|, |set c | c in CategoryOf(products)|)
  }

  /** Whether the modal is open, and the product it asks about. */
  datatype DeleteModal = DeleteModal(open: bool, target: Option<Product>)

  const ModalClosed := DeleteModal(false, None)

  /** `handleDeleteClick(product)`. */
  function DeleteClick(m: DeleteModal, p: Product): (r: DeleteModal)
    ensures r.open && r.target == Some(p)
  {
    DeleteModal(true, Some(p))
  }

  datatype ModalStep = ModalStep(modal: DeleteModal, dispatched: seq<Action>)

  /** `confirmDelete`: with a target, one DELETE_PRODUCT for its id, then the
      modal closes and forgets the target; without one, nothing happens. */
  function ConfirmDelete(m: DeleteModal): (r: ModalStep)
    ensures m.target.Some? ==>
      r.dispatched == [DeleteProduct(m.target.value.id)] && r.modal == ModalClosed
    ensures m.target.None? ==> r.dispatched == [] && r.modal == m
  {
    match m.target
    case Some(p) => ModalStep(DeleteModal(false, None), [DeleteProduct(p.id)])
    case None => ModalStep(m, [])
  }

  /** The Cancel button: closes the modal, dispatches nothing and keeps the target. */
  function CancelDelete(m: DeleteModal): (r: ModalStep)
    ensures !r.modal.open && r.modal.target == m.target && r.dispatched == []
  {
    ModalStep(m.(open := false), [])
  }

  /** Clicking delete on a product and confirming removes exactly the
      products with its id from the store, and nothing else. */
  lemma ClickThenConfirmDeletes(s: StoreState, m: DeleteModal, p: Product)
    ensures var after := Run(s, ConfirmDelete(DeleteClick(m, p)).dispatched);
      && FreshId(after.products, p.id)
      && (forall q :: q in after.products <==> q in s.products && !SameId(q.id, p.id))
      && (forall q :: multiset(after.products)[q] == if SameId(q.id, p.id) then 0 else multiset(s.products)[q])
      && after.loading == s.loading && after.error == s.error
  {
    RunOne(s, DeleteProduct(p.id));
    DeleteRemovesId(s, p.id);
  }

  /** Cancelling leaves the store as it was. */
  lemma CancelKeepsStore(s: StoreState, m: DeleteModal)
    ensures Run(s, CancelDelete(m).dispatched) == s
  {
  }

}

=== FILE: auth.dfy ===
/** The session: `AuthProvider`'s user and loading flags together with the
    "user" slot of local storage, as a state machine. The storage slot holds
    the parsed record directly; JSON encoding is not modelled. */
module Auth {

  import opened Options

  datatype User = User(username: string, role: string)

  /** `{ username: "admin", role: "admin" }`, the only account. */
  const AdminUser := User("admin", "admin")

  const InvalidCredentials := "Invalid credentials"

  datatype AuthState = AuthState(user: Option<User>, loading: bool, stored: Option<User>)

  /** The provider's first render: no user, loading, storage as found. */
  function Mount(stored: Option<User>): (s: AuthState)
    ensures s.user.None? && s.loading && s.stored == stored
  {
    AuthState(None, true, stored)
  }

  /** The mount effect: a saved record becomes the user; loading ends either way. */
  function Restore(s: AuthState): (r: AuthState)
    ensures !r.loading && r.stored == s.stored
    ensures s.stored.Some? ==> r.user == s.stored
    ensures s.stored.None? ==> r.user == s.user
  {
    AuthState(if s.stored.Some? then s.stored else s.user, false, s.stored)
  }

  /** `user?.role === "admin"`: the user logged in by `login` is an admin,
      and nobody is an admin without a user. */
  function IsAdmin(s: AuthState): (b: bool)
    ensures b ==> s.user.Some?
    ensures s.user == Some(AdminUser) ==> b
    ensures s.user.Some? && s.user.value.role == "admin" ==> b
    ensures s.user.Some? && s.user.value.role != "admin" ==> !b
  {
    s.user.Some? && s.user.value.role == "admin"
  }

  datatype LoginOutcome = Success | Failure(error: string)

  datatype LoginResult = LoginResult(state: AuthState, outcome: LoginOutcome)

  /** `login(username, password)`. */
  function Login(s: AuthState, username: string, password: string): (r: LoginResult)
    ensures r.outcome.Success? <==> username == "admin" && password == "admin123"
    ensures r.outcome.Success? ==>
      r.state == s.(user := Some(AdminUser), stored := Some(AdminUser)) && IsAdmin(r.state)
    ensures r.outcome.Failure? ==> r.state == s && r.outcome.error == InvalidCredentials
  {
    if username == "admin" && password == "admin123" then
      LoginResult(s.(user := Some(AdminUser), stored := Some(AdminUser)), Success)
    else
      LoginResult(s, Failure(InvalidCredentials))
  }

  /** After a login attempt the user is an admin exactly when the
      credentials were right or an admin was already logged in. */
  lemma AdminAfterLogin(s: AuthState, username: string, password: string)
    ensures IsAdmin(Login(s, username, password).state) <==>
      (username == "admin" && password == "admin123") || IsAdmin(s)
  {
  }

  /** `logout()`: clears the user and the storage slot. */
  function Logout(s: AuthState): (r: AuthState)
    ensures r.user.None? && r.stored.None? && r.loading == s.loading
    ensures !IsAdmin(r)
  {
    s.(user := None, stored := None)
  }

  datatype AuthOp = LoginOp(username: string, password: string) | LogoutOp

  function Step(s: AuthState, op: AuthOp): AuthState {
    match op
    case LoginOp(username, password) => Login(s, username, password).state
    case LogoutOp => Logout(s)
  }

  /** The state after the calls `ops`, in order. */
  function RunAuth(s: AuthState, ops: seq<AuthOp>): AuthState
    decreases |ops|
  {
    if |ops| == 0 then s else RunAuth(Step(s, ops[0]), ops[1..])
  }

  /** After the mount effect the user is what storage holds. */
  lemma RestoreAgrees(stored: Option<User>)
    ensures var s := Restore(Mount(stored));
      s.user == s.stored && !s.loading
  {
  }

  /** Once user and storage agree, every login and logout keeps them
      agreeing, and the loading flag does not move. */
  lemma {:induction false} SessionAgrees(s: AuthState, ops: seq<AuthOp>)
    requires s.user == s.stored
    ensures RunAuth(s, ops).user == RunAuth(s, ops).stored
    ensures RunAuth(s, ops).loading == s.loading
    decreases |ops|
  {
    if |ops| > 0 {
      SessionAgrees(Step(s, ops[0]), ops[1..]);
    }
  }

  /** A reload after any sequence of calls restores the same user. */
  lemma ReloadRestoresSession(stored: Option<User>, ops: seq<AuthOp>)
    ensures var s := RunAuth(Restore(Mount(stored)), ops);
      Restore(Mount(s.stored)).user == s.user
  {
    SessionAgrees(Restore(Mount(stored)), ops);
  }

}

=== FILE: bestseller.dfy ===
/** The Bestseller section: the first four products of the store, each
    card numbered from one; the section is absent for an empty store. */
module Bestseller {

  import opened Catalog
  import opened ProductsStore
  import opened Home

  const Limit := 4

  /** `products.slice(0, 4)`. */
  function Bestsellers(ps: seq<Product>): (r: seq<Product>)
    ensures |r| == (if |ps| < Limit then |ps| else Limit)
    ensures forall k :: 0 <= k < |r| ==> r[k] == ps[k]
  {
    ps[..if |ps| < Limit then |ps| else Limit]
  }

  /** `if (!bestsellerProducts.length) return null`. */
  function SectionShown(ps: seq<Product>): (shown: bool)
    ensures shown <==> |ps| > 0
  {
    |Bestsellers(ps)| > 0
  }

  /** A card receives the product and its position. */
  datatype Card = Card(product: Product, index: nat)

  /** The badge `#{index + 1}`. */
  function Badge(c: Card): nat {
    c.index + 1
  }

  function Cards(ps: seq<Product>): (cs: seq<Card>)
    ensures |cs| == |Bestsellers(ps)|
    ensures forall k :: 0 <= k < |cs| ==>
      cs[k].product == ps[k] && cs[k].index == k && 1 <= Badge(cs[k]) <= Limit
  {
    var b := Bestsellers(ps);
    seq(|b|, k requires 0 <= k < |b| => Card(b[k], k))
  }

  /** The selection and what follows it make up the whole store list. */
  lemma BestsellersArePrefix(ps: seq<Product>)
    ensures Bestsellers(ps) + ps[|Bestsellers(ps)|..] == ps
  {
  }

  /** The selection is the head of Home's unfiltered default listing. */
  lemma BestsellersLeadHomeListing(ps: seq<Product>, titleLeq: (string, string) -> bool)
    ensures var listing := Listing(ps, InitialFilters, titleLeq);
      |Bestsellers(ps)| <= |listing| && Bestsellers(ps) == listing[..|Bestsellers(ps)|]
  {
    UnfilteredListingIsStore(ps, titleLeq);
  }

  /** A newly added product becomes the first bestseller, and the others
      move down one place, the fourth dropping out. */
  lemma AddedProductLeads(s: StoreState, p: Product)
    ensures var before := Bestsellers(s.products);
      var after := Bestsellers(Reduce(s, AddProduct(p)).products);
      && |after| >= 1 && after[0] == p
      && after[1..] == before[..|after| - 1]
  {
  }

}

=== FILE: catalog.dfy ===
/** The storefront's single entity, the product, together with the two
    derivations every page shares: the category list and the lookup of a
    product by the `:id` route parameter. */
module Catalog {

  import opened Options
  import opened JsText
  import opened Seqs

  /** A product id is a JavaScript number. Ids from the server and ids made
      from `Date.now()` are integers; `Number(routeParam)` can also give NaN
      or a fraction, both folded into `NaNId`, which is unequal to every id. */
  datatype ProductId = IntId(n: int) | NaNId

  datatype Rating = Rating(rate: real, count: int)

  /** A catalogue item. Prices are exact reals (JavaScript doubles in the
      source); products made by the form carry no rating. */
  datatype Product = Product(
    id: ProductId,
    title: string,
    price: real,
    description: string,
    image: string,
    category: string,
    rating: Option<Rating>)

  /** `a === b` on ids: NaN is equal to nothing, itself included. */
  predicate SameId(a: ProductId, b: ProductId) {
    a.IntId? && b.IntId? && a.n == b.n
  }

  /** `String(id)`. */
  function IdText(id: ProductId): (r: string)
    ensures |r| >= 1
    ensures r == "NaN" <==> id.NaNId?
    ensures id.IntId? ==> (r[0] == '-' <==> id.n < 0)
  {
    match id
    case IntId(n) =>
      IntTextIsNotNaN(n);
      IntText(n)
    case NaNId => "NaN"
  }

  /** Two ids render to the same route text exactly when they are the same
      integer, or both NaN. */
  lemma IdTextInjective(a: ProductId, b: ProductId)
    requires IdText(a) == IdText(b)
    ensures a == b
  {
    match a
    case IntId(n) =>
      if b.IntId? {
        IntTextInjective(n, b.n);
      }
    case NaNId =>
  }

  /** No two products in the list share an id. */
  predicate UniqueIds(ps: seq<Product>) {
    forall i, j :: 0 <= i < j < |ps| ==> !SameId(ps[i].id, ps[j].id)
  }

  /** No product in the list has this id. */
  predicate FreshId(ps: seq<Product>, id: ProductId) {
    forall i :: 0 <= i < |ps| ==> !SameId(ps[i].id, id)
  }

  /** `products.map(p => p.category)`. */
  function CategoryOf(ps: seq<Product>): (cs: seq<string>)
    ensures |cs| == |ps|
    ensures forall i :: 0 <= i < |ps| ==> cs[i] == ps[i].category
  {
    seq(|ps|, i requires 0 <= i < |ps| => ps[i].category)
  }

  /** `["all", ...new Set(products.map(p => p.category))]`. */
  function Categories(ps: seq<Product>): (r: seq<string>)
    ensures |r| >= 1 && r[0] == "all"
    ensures forall c :: c in r[1..] <==> exists i :: 0 <= i < |ps| && ps[i].category == c
    ensures Distinct(r[1..])
    ensures forall i :: 1 <= i < |r| ==> r[i] in CategoryOf(ps)
    ensures forall i, j :: 1 <= i < j < |r| ==>
      FirstIndex(CategoryOf(ps), r[i]) < FirstIndex(CategoryOf(ps), r[j])
  {
    var d := Dedup(CategoryOf(ps));
    DedupFirstAppearanceOrder(CategoryOf(ps));
    assert (["all"] + d)[1..] == d;
    ["all"] + d
  }

  /** Position `k` holds the first product whose id renders as `routeId`. */
  predicate FirstMatch(ps: seq<Product>, routeId: string, k: int) {
    && 0 <= k < |ps|
    && IdText(ps[k].id) == routeId
    && forall j :: 0 <= j < k ==> IdText(ps[j].id) != routeId
  }

  /** There is at most one first match. */
  lemma FirstMatchUnique(ps: seq<Product>, routeId: string, k1: int, k2: int)
    requires FirstMatch(ps, routeId, k1) && FirstMatch(ps, routeId, k2)
    ensures k1 == k2
  {
  }

  function FirstMatchFrom(ps: seq<Product>, routeId: string, k: nat): (r: Option<nat>)
    requires k <= |ps|
    requires forall j :: 0 <= j < k ==> IdText(ps[j].id) != routeId
    ensures r.None? <==> forall i :: 0 <= i < |ps| ==> IdText(ps[i].id) != routeId
    ensures r.Some? ==> FirstMatch(ps, routeId, r.value)
    decreases |ps| - k
  {
    if k == |ps| then None
    else if IdText(ps[k].id) == routeId then Some(k)
    else FirstMatchFrom(ps, routeId, k + 1)
  }

  /** `products.find(p => String(p.id) === String(routeId))`: the first
      product whose id renders as the route parameter, if any. */
  function FindByRouteId(ps: seq<Product>, routeId: string): (r: Option<Product>)
    ensures r.None? <==> forall i :: 0 <= i < |ps| ==> IdText(ps[i].id) != routeId
    ensures r.Some? ==> exists k :: FirstMatch(ps, routeId, k) && ps[k] == r.value
  {
    match FirstMatchFrom(ps, routeId, 0)
    case Some(k) => Some(ps[k])
    case None => None
  }

  /** The price input of the product form: the text typed into it, or the
      number copied from an existing product when editing. */
  datatype PriceField = PriceText(text: string) | PriceNumber(amount: real)

  /** The five fields of the add/edit form. */
  datatype ProductForm = ProductForm(
    title: string,
    price: PriceField,
    description: string,
    image: string,
    category: string)

  datatype FieldName = Title | Price | Description | Image | Category

}

=== FILE: gallery.dfy ===
/** The featured gallery's carousel over its four fixed slides. */
module Gallery {

  /** `galleryImages.length`. */
  const SlideCount := 4

  type SlideIndex = i: int | 0 <= i < SlideCount

  /** `(prev + 1) % galleryImages.length`. */
  function NextSlide(i: SlideIndex): (r: SlideIndex)
    ensures r == if i == SlideCount - 1 then 0 else i + 1
  {
    (i + 1) % SlideCount
  }

  /** `(prev - 1 + galleryImages.length) % galleryImages.length`. */
  function PrevSlide(i: SlideIndex): (r: SlideIndex)
    ensures r == if i == 0 then SlideCount - 1 else i - 1
  {
    (i - 1 + SlideCount) % SlideCount
  }

  lemma PrevUndoesNext(i: SlideIndex)
    ensures PrevSlide(NextSlide(i)) == i
    ensures NextSlide(PrevSlide(i)) == i
  {
  }

  /** `k` successive `nextSlide` calls. */
  function Advance(i: SlideIndex, k: nat): SlideIndex
    decreases k
  {
    if k == 0 then i else NextSlide(Advance(i, k - 1))
  }

  lemma {:induction false} AdvanceIsModular(i: SlideIndex, k: nat)
    ensures Advance(i, k) == (i + k) % SlideCount
    decreases k
  {
    if k > 0 {
      AdvanceIsModular(i, k - 1);
    }
  }

  /** As many `nextSlide` calls as there are slides return to the start. */
  lemma FullCycle(i: SlideIndex)
    ensures Advance(i, SlideCount) == i
  {
    AdvanceIsModular(i, SlideCount);
  }

  datatype Carousel = Carousel(current: SlideIndex, autoPlaying: bool)

  const InitialCarousel := Carousel(0, true)

  /** `goToSlide(index)` for a thumbnail: show it and pause the autoplay. */
  function GoToSlide(c: Carousel, index: SlideIndex): (r: Carousel)
    ensures r.current == index && !r.autoPlaying
  {
    Carousel(index, false)
  }

  /** The slide counter `currentIndex + 1`. */
  function Counter(c: Carousel): (n: int)
    ensures 1 <= n <= SlideCount && n - 1 == c.current
  {
    c.current + 1
  }

}

=== FILE: header.dfy ===
/** The header's flags: hide-on-scroll, the scrolled look, and the mobile
    menu, with the logout that also closes the menu. Positions and widths
    are the inputs of the scroll and resize events. */
module Header {

  import opened JsText
  import opened Auth

  datatype HeaderState = HeaderState(visible: bool, scrolled: bool, mobileOpen: bool, lastScrollY: real)

  const InitialHeader := HeaderState(true, false, false, 0.0)

  const ScrolledAfter := 50.0
  const HideAfter := 100.0
  const DesktopWidth := 768

  /** `handleScroll` at position `y`. */
  function OnScroll(h: HeaderState, y: real): (r: HeaderState)
    ensures r.scrolled <==> y > ScrolledAfter
    ensures !r.visible <==> y > h.lastScrollY && y > HideAfter
    ensures r.lastScrollY == y && r.mobileOpen == h.mobileOpen
  {
    HeaderState(!(y > h.lastScrollY && y > HideAfter), y > ScrolledAfter, h.mobileOpen, y)
  }

  /** The state after scroll events at the positions `ys`, in order. */
  function Scrolls(h: HeaderState, ys: seq<real>): HeaderState
    decreases |ys|
  {
    if |ys| == 0 then h else Scrolls(OnScroll(h, ys[0]), ys[1..])
  }

  /** After any non-empty run of scroll events the header remembers the last
      position, its look follows that position alone, it is hidden only if
      the last move went down past 100, and the menu is untouched. */
  lemma {:induction false} ScrollsFollowLast(h: HeaderState, ys: seq<real>)
    requires |ys| > 0
    ensures var r := Scrolls(h, ys);
      var last := ys[|ys| - 1];
      var prev := if |ys| == 1 then h.lastScrollY else ys[|ys| - 2];
      && r.lastScrollY == last
      && (r.scrolled <==> last > ScrolledAfter)
      && (!r.visible <==> last > prev && last > HideAfter)
      && r.mobileOpen == h.mobileOpen
    decreases |ys|
  {
    if |ys| > 1 {
      ScrollsFollowLast(OnScroll(h, ys[0]), ys[1..]);
    } else {
      assert ys[1..] == [];
    }
  }

  /** Near the top the header is always shown, whichever way it scrolls. */
  lemma NearTopVisible(h: HeaderState, ys: seq<real>)
    requires |ys| > 0 && ys[|ys| - 1] <= HideAfter
    ensures Scrolls(h, ys).visible
  {
    ScrollsFollowLast(h, ys);
  }

  /** `handleResize`: a desktop width closes the menu; otherwise nothing changes. */
  function OnResize(h: HeaderState, width: int): (r: HeaderState)
    ensures width >= DesktopWidth ==> r == h.(mobileOpen := false)
    ensures width < DesktopWidth ==> r == h
  {
    if width >= DesktopWidth && h.mobileOpen then h.(mobileOpen := false) else h
  }

  /** The menu button. */
  function ToggleMenu(h: HeaderState): (r: HeaderState)
    ensures r.mobileOpen != h.mobileOpen && r.(mobileOpen := h.mobileOpen) == h
  {
    h.(mobileOpen := !h.mobileOpen)
  }

  lemma ToggleTwice(h: HeaderState)
    ensures ToggleMenu(ToggleMenu(h)) == h
  {
  }

  /** A menu link or the logo. */
  function CloseMenu(h: HeaderState): (r: HeaderState)
    ensures !r.mobileOpen && r.(mobileOpen := h.mobileOpen) == h
  {
    h.(mobileOpen := false)
  }

  datatype LogoutStep = LogoutStep(auth: AuthState, header: HeaderState, navigateTo: string)

  /** `handleLogout`: log out, go home, close the menu. */
  function HandleLogout(auth: AuthState, h: HeaderState): (r: LogoutStep)
    ensures r.auth.user.None? && r.auth.stored.None? && !IsAdmin(r.auth)
    ensures r.navigateTo == "/" && r.header == CloseMenu(h)
  {
    LogoutStep(Logout(auth), CloseMenu(h), "/")
  }

  /** `user.username.charAt(0).toUpperCase()`. */
  function AvatarLetter(username: string): (r: string)
    ensures |username| == 0 ==> r == ""
    ensures |username| > 0 ==> |r| == 1 && Lower(r) == Lower([username[0]])
    ensures |username| > 0 && 'a' <= username[0] <= 'z' ==> 'A' <= r[0] <= 'Z'
    ensures |username| > 0 ==> !('a' <= r[0] <= 'z')
  {
    if |username| == 0 then "" else [UpperChar(username[0])]
  }

  /** The avatar does not depend on the case of the first letter, and the
      admin's avatar shows "A". */
  lemma AvatarIgnoresCase(u: string, v: string)
    requires |u| > 0 && |v| > 0 && Lower([u[0]]) == Lower([v[0]])
    ensures AvatarLetter(u) == AvatarLetter(v)
    ensures AvatarLetter(AdminUser.username) == "A"
  {
    assert Lower([u[0]])[0] == LowerChar(u[0]);
    assert Lower([v[0]])[0] == LowerChar(v[0]);
  }

}

=== FILE: home.dfy ===
/** The Home page's product listing: a category filter, then a title
    search, then a sort on one of four keys; plus the "Clear all" reset and
    the result-count label. */
module Home {

  import opened JsText
  import opened Seqs
  import opened Catalog

  /** The values of the sort `<select>`. Any other value falls into the
      comparator's `default` branch, so `Default` stands for it too. */
  datatype SortKey = Default | PriceLow | PriceHigh | ByName

  datatype Filters = Filters(category: string, query: string, sortBy: SortKey)

  /** The page's initial choices, which "Clear all" restores. */
  const InitialFilters := Filters("all", "", Default)

  predicate InCategory(p: Product, category: string) {
    category == "all" || p.category == category
  }

  /** `p.title.toLowerCase().includes(query.toLowerCase())`. */
  predicate TitleMatches(p: Product, query: string) {
    Includes(Lower(p.title), Lower(query))
  }

  /** The title search ignores case on both sides: a query matches exactly
      when its lower-cased form does, and titles that agree up to case match
      the same queries. */
  lemma SearchIgnoresCase(p: Product, q: Product, query: string)
    requires Lower(p.title) == Lower(q.title)
    ensures TitleMatches(p, query) <==> TitleMatches(p, Lower(query))
    ensures TitleMatches(p, query) <==> TitleMatches(q, query)
  {
    LowerIdempotent(query);
  }

  function CategoryFilter(category: string): Product -> bool {
    (p: Product) => InCategory(p, category)
  }

  function SearchFilter(query: string): Product -> bool {
    (p: Product) => TitleMatches(p, query)
  }

  /** The comparator of each sort key, as "a may precede b": `cmp(a, b) <= 0`.
      `titleLeq` stands for `a.title.localeCompare(b.title) <= 0`. */
  function Comparator(key: SortKey, titleLeq: (string, string) -> bool): (leq: (Product, Product) -> bool)
    ensures key == Default ==> forall a, b :: leq(a, b)
    ensures key == PriceLow ==> forall a, b :: leq(a, b) <==> a.price <= b.price
    ensures key == PriceHigh ==> forall a, b :: leq(a, b) <==> a.price >= b.price
    ensures key == ByName ==> forall a, b :: leq(a, b) <==> titleLeq(a.title, b.title)
    ensures key != ByName ==> Total(leq) && Transitive(leq)
  {
    match key
    case Default => (a: Product, b: Product) => true
    case PriceLow => (a: Product, b: Product) => a.price <= b.price
    case PriceHigh => (a: Product, b: Product) => b.price <= a.price
    case ByName => (a: Product, b: Product) => titleLeq(a.title, b.title)
  }

  /** The two filters, before sorting. */
  function Filtered(products: seq<Product>, f: Filters): seq<Product> {
    Filter(Filter(products, CategoryFilter(f.category)), SearchFilter(f.query))
  }

  /** `filteredProducts`. */
  function Listing(products: seq<Product>, f: Filters, titleLeq: (string, string) -> bool): (r: seq<Product>)
    ensures multiset(r) == multiset(Filtered(products, f))
  {
    SortBy(Filtered(products, f), Comparator(f.sortBy, titleLeq))
  }

  /** The listing holds exactly the products that pass both filters, each as
      many times as the store holds it: sorting adds, drops and duplicates
      nothing. */
  lemma ListingContents(products: seq<Product>, f: Filters, titleLeq: (string, string) -> bool)
    ensures var r := Listing(products, f, titleLeq);
      && multiset(r) == multiset(Filtered(products, f))
      && (forall p :: p in r <==> p in products && InCategory(p, f.category) && TitleMatches(p, f.query))
      && |r| <= |products|
  {
    var r := Listing(products, f, titleLeq);
    forall p
      ensures p in r <==> p in Filtered(products, f)
    {
      assert p in r <==> p in multiset(r);
    }
  }

  /** Before sorting, the filtered products are in store order. */
  lemma FilteredKeepsStoreOrder(products: seq<Product>, f: Filters)
    ensures IsSubsequence(Filtered(products, f), products)
  {
    var once := Filter(products, CategoryFilter(f.category));
    FilterIsSubsequence(products, CategoryFilter(f.category));
    FilterIsSubsequence(once, SearchFilter(f.query));
    SubsequenceTransitive(Filtered(products, f), once, products);
  }

  lemma {:induction false} SubsequenceTransitive<T>(a: seq<T>, b: seq<T>, c: seq<T>)
    requires IsSubsequence(a, b) && IsSubsequence(b, c)
    ensures IsSubsequence(a, c)
    decreases |c|
  {
    if |a| > 0 {
      if IsSubsequence(b, c[1..]) {
        SubsequenceTransitive(a, b, c[1..]);
      } else {
        assert b[0] == c[0] && IsSubsequence(b[1..], c[1..]);
        if a[0] == b[0] && IsSubsequence(a[1..], b[1..]) {
          SubsequenceTransitive(a[1..], b[1..], c[1..]);
        } else {
          SubsequenceTransitive(a, b[1..], c[1..]);
        }
      }
    }
  }

  /** "price-low" lists prices in non-decreasing order. */
  lemma PriceLowSorted(products: seq<Product>, category: string, query: string, titleLeq: (string, string) -> bool)
    ensures var r := Listing(products, Filters(category, query, PriceLow), titleLeq);
      forall i, j :: 0 <= i < j < |r| ==> r[i].price <= r[j].price
  {
    var leq := Comparator(PriceLow, titleLeq);
    assert Total(leq) && Transitive(leq);
    SortBySorted(Filtered(products, Filters(category, query, PriceLow)), leq);
  }

  /** "price-high" lists prices in non-increasing order. */
  lemma PriceHighSorted(products: seq<Product>, category: string, query: string, titleLeq: (string, string) -> bool)
    ensures var r := Listing(products, Filters(category, query, PriceHigh), titleLeq);
      forall i, j :: 0 <= i < j < |r| ==> r[i].price >= r[j].price
  {
    var leq := Comparator(PriceHigh, titleLeq);
    assert Total(leq) && Transitive(leq);
    SortBySorted(Filtered(products, Filters(category, query, PriceHigh)), leq);
  }

  /** "name" lists titles in collation order, when the collation is a total preorder. */
  lemma NameSorted(products: seq<Product>, category: string, query: string, titleLeq: (string, string) -> bool)
    requires forall a, b :: titleLeq(a, b) || titleLeq(b, a)
    requires forall a, b, c :: titleLeq(a, b) && titleLeq(b, c) ==> titleLeq(a, c)
    ensures var r := Listing(products, Filters(category, query, ByName), titleLeq);
      forall i, j :: 0 <= i < j < |r| ==> titleLeq(r[i].title, r[j].title)
  {
    var leq := Comparator(ByName, titleLeq);
    forall a: Product, b: Product
      ensures leq(a, b) || leq(b, a)
    {
      assert titleLeq(a.title, b.title) || titleLeq(b.title, a.title);
    }
    forall a: Product, b: Product, c: Product | leq(a, b) && leq(b, c)
      ensures leq(a, c)
    {
      assert titleLeq(a.title, b.title) && titleLeq(b.title, c.title);
    }
    SortBySorted(Filtered(products, Filters(category, query, ByName)), leq);
  }

  /** The default comparator returns 0, so the filtered products keep store order. */
  lemma DefaultKeepsOrder(products: seq<Product>, category: string, query: string, titleLeq: (string, string) -> bool)
    ensures Listing(products, Filters(category, query, Default), titleLeq) ==
      Filtered(products, Filters(category, query, Default))
  {
    SortByAllEqual(Filtered(products, Filters(category, query, Default)), Comparator(Default, titleLeq));
  }

  /** With every category and an empty search, the default listing is the store list. */
  lemma UnfilteredListingIsStore(products: seq<Product>, titleLeq: (string, string) -> bool)
    ensures Listing(products, InitialFilters, titleLeq) == products
  {
    FilterAllPass(products, CategoryFilter("all"));
    forall i | 0 <= i < |products|
      ensures SearchFilter("")(products[i])
    {
      assert Lower("") == "";
      IncludesEmpty(Lower(products[i].title));
    }
    FilterAllPass(products, SearchFilter(""));
    DefaultKeepsOrder(products, "all", "", titleLeq);
  }

  /** "Clear all": category "all", an empty search, the default sort. */
  function ClearAll(f: Filters): (r: Filters)
    ensures r.category == "all" && r.query == "" && r.sortBy == Default
  {
    InitialFilters
  }

  /** After "Clear all" the listing is the whole store list, in store order. */
  lemma ClearAllShowsStore(products: seq<Product>, f: Filters, titleLeq: (string, string) -> bool)
    ensures Listing(products, ClearAll(f), titleLeq) == products
  {
    UnfilteredListingIsStore(products, titleLeq);
  }

  /** The count label: "product" for exactly one result, else "products". */
  function ProductWord(count: nat): (w: string)
    ensures w == "product" <==> count == 1
    ensures w == "products" <==> count != 1
  {
    if count == 1 then "product" else "products"
  }

}

=== FILE: js_text.dfy ===
/** The parts of JavaScript's string and number semantics the storefront
    relies on, restricted to ASCII text: `toLowerCase`, `toUpperCase`,
    `trim`, `includes`, `String(n)` of an integer, and the shape of the
    value `Number(text)` yields. */
module JsText {

  /** What `Number(text)` yields: NaN or a finite number. Which one a given
      text denotes is decided by the caller's `toNumber` oracle. */
  datatype NumberValue = NaN | Finite(x: real)

  function LowerChar(c: char): char {
    if 'A' <= c <= 'Z' then (c as int - 'A' as int + 'a' as int) as char else c
  }

  function UpperChar(c: char): char {
    if 'a' <= c <= 'z' then (c as int - 'a' as int + 'A' as int) as char else c
  }

  /** `s.toLowerCase()` on ASCII text. */
  function Lower(s: string): (r: string)
    ensures |r| == |s|
    ensures forall i :: 0 <= i < |s| ==>
      r[i] == if 'A' <= s[i] <= 'Z' then (s[i] as int + 32) as char else s[i]
    ensures forall i :: 0 <= i < |r| ==> !('A' <= r[i] <= 'Z')
  {
    seq(|s|, i requires 0 <= i < |s| => LowerChar(s[i]))
  }

  /** Lower-casing twice is lower-casing once. */
  lemma LowerIdempotent(s: string)
    ensures Lower(Lower(s)) == Lower(s)
  {
  }

  /** `s.length`: the number of UTF-16 code units, two for a character
      outside the Basic Multilingual Plane. */
  function Utf16Length(s: string): (n: nat)
    ensures |s| <= n <= 2 * |s|
    ensures n == 0 <==> |s| == 0
    ensures (forall i :: 0 <= i < |s| ==> s[i] as int < 0x1_0000) ==> n == |s|
    decreases |s|
  {
    if |s| == 0 then 0
    else (if s[0] as int >= 0x1_0000 then 2 else 1) + Utf16Length(s[1..])
  }

  /** One character takes two code units outside the Basic Multilingual
      Plane and one inside it. */
  lemma Utf16LengthChar(c: char)
    ensures Utf16Length([c]) == if c as int >= 0x1_0000 then 2 else 1
  {
    assert [c][1..] == [];
  }

  /** The length of a concatenation is the sum of the lengths, so with
      `Utf16LengthChar` the length is fixed character by character. */
  lemma {:induction false} Utf16LengthAppend(a: string, b: string)
    ensures Utf16Length(a + b) == Utf16Length(a) + Utf16Length(b)
  {
    if |a| > 0 {
      assert (a + b)[0] == a[0];
      assert (a + b)[1..] == a[1..] + b;
      Utf16LengthAppend(a[1..], b);
    } else {
      assert a + b == b;
    }
  }

  /** The white space `String.prototype.trim` removes, restricted to ASCII. */
  predicate IsSpace(c: char) {
    c == ' ' || c == '\t' || c == '\n' || c == '\r' || c == 11 as char || c == 12 as char
  }

  function TrimStart(s: string): (r: string)
    ensures |r| <= |s| && r == s[|s| - |r|..]
    ensures forall i :: 0 <= i < |s| - |r| ==> IsSpace(s[i])
    ensures |r| > 0 ==> !IsSpace(r[0])
  {
    if |s| > 0 && IsSpace(s[0]) then TrimStart(s[1..]) else s
  }

  function TrimEnd(s: string): (r: string)
    ensures |r| <= |s| && r == s[..|r|]
    ensures forall i :: |r| <= i < |s| ==> IsSpace(s[i])
    ensures |r| > 0 ==> !IsSpace(r[|r| - 1])
  {
    if |s| > 0 && IsSpace(s[|s| - 1]) then TrimEnd(s[..|s| - 1]) else s
  }

  /** `s.trim()`: the text between the first and the last non-space character. */
  function Trim(s: string): (r: string)
    ensures |r| <= |s|
    ensures exists i :: TrimmedAt(s, r, i)
    ensures |r| > 0 ==> !IsSpace(r[0]) && !IsSpace(r[|r| - 1])
  {
    var t := TrimStart(s);
    var r := TrimEnd(t);
    assert TrimmedAt(s, r, |s| - |t|);
    r
  }

  /** `r` sits at position `i` of `s`, with only white space around it. */
  predicate TrimmedAt(s: string, r: string, i: int) {
    && 0 <= i <= |s| - |r|
    && r == s[i..i + |r|]
    && (forall k :: 0 <= k < i ==> IsSpace(s[k]))
    && (forall k :: i + |r| <= k < |s| ==> IsSpace(s[k]))
  }

  /** Trimming leaves nothing exactly when the text is all white space. */
  lemma TrimEmptyIffBlank(s: string)
    ensures |Trim(s)| == 0 <==> forall i :: 0 <= i < |s| ==> IsSpace(s[i])
  {
  }

  /** `hay.includes(needle)`: the needle occurs at some position of the hay. */
  predicate Includes(hay: string, needle: string) {
    exists i | 0 <= i <= |hay| - |needle| :: OccursAt(hay, needle, i)
  }

  predicate OccursAt(hay: string, needle: string, i: int) {
    0 <= i <= |hay| - |needle| && hay[i..i + |needle|] == needle
  }

  /** An empty search text is found in every text. */
  lemma IncludesEmpty(hay: string)
    ensures Includes(hay, "")
  {
    assert OccursAt(hay, "", 0);
  }

  function DigitChar(d: int): (c: char)
    requires 0 <= d < 10
    ensures '0' <= c <= '9'
  {
    ('0' as int + d) as char
  }

  predicate AllDigits(s: string) {
    forall i :: 0 <= i < |s| ==> '0' <= s[i] <= '9'
  }

  /** The decimal digits of a natural number, most significant first. */
  function NatText(n: nat): (r: string)
    ensures |r| >= 1 && AllDigits(r)
  {
    if n < 10 then [DigitChar(n)] else NatText(n / 10) + [DigitChar(n % 10)]
  }

  /** `String(n)` of an integer below 10^21 in magnitude. */
  function IntText(n: int): (r: string)
    ensures |r| >= 1
    ensures r[0] == '-' <==> n < 0
    ensures n >= 0 ==> AllDigits(r) && DigitsValue(r) == n
    ensures n < 0 ==> AllDigits(r[1..]) && DigitsValue(r[1..]) == -n
  {
    if n < 0 then
      var t := NatText(-n);
      NatTextRoundTrip(-n);
      assert ("-" + t)[1..] == t;
      "-" + t
    else
      NatTextRoundTrip(n);
      assert '0' <= NatText(n)[0] <= '9';
      NatText(n)
  }

  /** The value of a text of decimal digits. */
  function DigitsValue(s: string): nat
    requires AllDigits(s)
  {
    if |s| == 0 then 0 else DigitsValue(s[..|s| - 1]) * 10 + (s[|s| - 1] as int - '0' as int)
  }

  lemma {:induction false} NatTextRoundTrip(n: nat)
    ensures DigitsValue(NatText(n)) == n
  {
    if n >= 10 {
      var t := NatText(n);
      assert t[..|t| - 1] == NatText(n / 10);
      NatTextRoundTrip(n / 10);
    }
  }

  lemma NatTextInjective(a: nat, b: nat)
    requires NatText(a) == NatText(b)
    ensures a == b
  {
    NatTextRoundTrip(a);
    NatTextRoundTrip(b);
  }

  /** Different integers have different decimal texts, so a route parameter
      names at most one integer id. */
  lemma IntTextInjective(a: int, b: int)
    requires IntText(a) == IntText(b)
    ensures a == b
  {
    if a < 0 {
      assert IntText(a)[1..] == IntText(b)[1..];
    }
  }

  /** No integer's text is "NaN", the text of a NaN id. */
  lemma IntTextIsNotNaN(n: int)
    ensures IntText(n) != "NaN"
  {
    if n >= 0 {
      assert '0' <= IntText(n)[0] <= '9';
    }
  }

}

=== FILE: options.dfy ===
/** The storefront's "maybe absent" values: a `null` user, a `null` error,
    an unset delete target, the `undefined` that `Array.prototype.find` returns. */
module Options {

  datatype Option<+T> = None | Some(value: T)

}

=== FILE: price_totals.dfy ===
/** The dashboard's price statistics, `products.reduce((sum, p) => sum +
    p.price, 0)` followed by `.toFixed(2)`, under JavaScript's `+`: numbers
    add, and a string on either side turns the sum into a concatenation.
    Rounding to two decimals is not modelled; `Formatted(x)` stands for the
    text of `x`. `numberText` stands for `String(x)` of a number. */
module PriceTotals {

  import opened JsText
  import opened Catalog
  import opened ProductsStore
  import opened Validators
  import opened AddEditProduct

  /** A stored price: the number a product carries, or the text a form left in it. */
  datatype JsValue = JsNumber(x: real) | JsString(s: string)

  /** The text `+` concatenates when one side is a string. */
  function TextOf(v: JsValue, numberText: real -> string): string {
    match v
    case JsNumber(x) => numberText(x)
    case JsString(s) => s
  }

  /** JavaScript's binary `+` on a number or a string. */
  function Plus(a: JsValue, b: JsValue, numberText: real -> string): (r: JsValue)
    ensures r.JsNumber? <==> a.JsNumber? && b.JsNumber?
    ensures r.JsNumber? ==> r.x == a.x + b.x
    ensures r.JsString? ==> r.s == TextOf(a, numberText) + TextOf(b, numberText)
  {
    if a.JsNumber? && b.JsNumber? then JsNumber(a.x + b.x)
    else JsString(TextOf(a, numberText) + TextOf(b, numberText))
  }

  /** The left fold `reduce((sum, p) => sum + p, acc)`. */
  function SumFrom(acc: JsValue, prices: seq<JsValue>, numberText: real -> string): JsValue
    decreases |prices|
  {
    if |prices| == 0 then acc
    else SumFrom(Plus(acc, prices[0], numberText), prices[1..], numberText)
  }

  /** `.toFixed(2)`: defined on numbers; a string has no such method. */
  datatype Fixed = Formatted(value: real) | TypeError

  function ToFixed(v: JsValue): (r: Fixed)
    ensures r.TypeError? <==> v.JsString?
    ensures v.JsNumber? ==> r == Formatted(v.x)
  {
    match v
    case JsNumber(x) => Formatted(x)
    case JsString(_) => TypeError
  }

  /** `totalValue`: it throws exactly when some price is text. */
  function TotalValue(prices: seq<JsValue>, numberText: real -> string): (r: Fixed)
    ensures r.TypeError? <==> exists k :: 0 <= k < |prices| && prices[k].JsString?
  {
    SumIsTextIff(JsNumber(0.0), prices, numberText);
    ToFixed(SumFrom(JsNumber(0.0), prices, numberText))
  }

  /** Numbers added to a number give a number. */
  lemma {:induction false} NumbersStayNumber(acc: JsValue, prices: seq<JsValue>, numberText: real -> string)
    requires acc.JsNumber?
    requires forall k :: 0 <= k < |prices| ==> prices[k].JsNumber?
    ensures SumFrom(acc, prices, numberText).JsNumber?
    decreases |prices|
  {
    if |prices| > 0 {
      NumbersStayNumber(Plus(acc, prices[0], numberText), prices[1..], numberText);
    }
  }

  /** From a numeric start, the fold is a string exactly when some price is. */
  lemma SumIsTextIff(acc: JsValue, prices: seq<JsValue>, numberText: real -> string)
    requires acc.JsNumber?
    ensures SumFrom(acc, prices, numberText).JsString? <==> exists k :: 0 <= k < |prices| && prices[k].JsString?
  {
    if exists k :: 0 <= k < |prices| && prices[k].JsString? {
      var k :| 0 <= k < |prices| && prices[k].JsString?;
      TextPriceBreaksTotalFrom(acc, prices, k, numberText);
    } else {
      NumbersStayNumber(acc, prices, numberText);
    }
  }

  /** Once the running sum is a string it stays one. */
  lemma {:induction false} StringAbsorbs(acc: JsValue, prices: seq<JsValue>, numberText: real -> string)
    requires acc.JsString?
    ensures SumFrom(acc, prices, numberText).JsString?
    decreases |prices|
  {
    if |prices| > 0 {
      StringAbsorbs(Plus(acc, prices[0], numberText), prices[1..], numberText);
    }
  }

  /** A single text price anywhere in the list makes the total throw. */
  lemma {:induction false} TextPriceBreaksTotalFrom(acc: JsValue, prices: seq<JsValue>, k: int, numberText: real -> string)
    requires 0 <= k < |prices| && prices[k].JsString?
    ensures SumFrom(acc, prices, numberText).JsString?
    decreases |prices|
  {
    if k == 0 {
      StringAbsorbs(Plus(acc, prices[0], numberText), prices[1..], numberText);
    } else {
      TextPriceBreaksTotalFrom(Plus(acc, prices[0], numberText), prices[1..], k - 1, numberText);
    }
  }

  lemma TextPriceBreaksTotal(prices: seq<JsValue>, k: int, numberText: real -> string)
    requires 0 <= k < |prices| && prices[k].JsString?
    ensures TotalValue(prices, numberText) == TypeError
  {
    TextPriceBreaksTotalFrom(JsNumber(0.0), prices, k, numberText);
  }

  /** Numeric prices only: the fold is the arithmetic sum. */
  function PriceSum(ps: seq<Product>): real
    decreases |ps|
  {
    if |ps| == 0 then 0.0 else ps[0].price + PriceSum(ps[1..])
  }

  /** The prices of a store whose every price is a number. */
  function NumericPrices(ps: seq<Product>): (r: seq<JsValue>)
    ensures |r| == |ps|
    ensures forall i :: 0 <= i < |ps| ==> r[i] == JsNumber(ps[i].price)
  {
    seq(|ps|, i requires 0 <= i < |ps| => JsNumber(ps[i].price))
  }

  lemma {:induction false} NumericSumFrom(acc: real, ps: seq<Product>, numberText: real -> string)
    ensures SumFrom(JsNumber(acc), NumericPrices(ps), numberText) == JsNumber(acc + PriceSum(ps))
    decreases |ps|
  {
    if |ps| > 0 {
      assert NumericPrices(ps)[1..] == NumericPrices(ps[1..]);
      NumericSumFrom(acc + ps[0].price, ps[1..], numberText);
    }
  }

  /** With numeric prices the total never throws and is the sum of the prices. */
  lemma NumericTotal(ps: seq<Product>, numberText: real -> string)
    ensures TotalValue(NumericPrices(ps), numberText) == Formatted(PriceSum(ps))
  {
    NumericSumFrom(0.0, ps, numberText);
  }

  /** `avgPrice`: the number 0 for an empty store, else the formatted mean. */
  datatype Average = NoAverage | Mean(value: real)

  function AveragePrice(ps: seq<Product>): (r: Average)
    ensures r.NoAverage? <==> |ps| == 0
    ensures r.Mean? ==> r.value * (|ps| as real) == PriceSum(ps)
  {
    if |ps| == 0 then NoAverage else Mean(PriceSum(ps) / (|ps| as real))
  }

  /** The price the source stores for a submitted form: `{ id, ...form }`
      keeps the field as it is, text when typed and a number when copied
      from a product and left alone. */
  function StoredPriceAsWritten(price: PriceField): (v: JsValue)
    ensures v.JsString? <==> price.PriceText?
  {
    match price
    case PriceText(t) => JsString(t)
    case PriceNumber(x) => JsNumber(x)
  }

  /** As written, adding a product through the form (whose price field is
      text once typed into) puts a text price at the head of the store, and
      the dashboard's total then throws a TypeError. */
  lemma AsWrittenAddBreaksTotal(ps: seq<Product>, form: ProductForm, typed: string, numberText: real -> string)
    ensures var entered := OnChange(form, Price, typed);
      TotalValue([StoredPriceAsWritten(entered.price)] + NumericPrices(ps), numberText) == TypeError
  {
    TextPriceBreaksTotal([StoredPriceAsWritten(OnChange(form, Price, typed).price)] + NumericPrices(ps), 0, numberText);
  }

  /** A concrete instance: a store holding one product of price 10 and a
      form whose price was typed as "5". */
  lemma AsWrittenCounterexample(p: Product, numberText: real -> string)
    requires p.price == 10.0
    ensures TotalValue([StoredPriceAsWritten(PriceText("5"))] + NumericPrices([p]), numberText) == TypeError
  {
    TextPriceBreaksTotal([StoredPriceAsWritten(PriceText("5"))] + NumericPrices([p]), 0, numberText);
  }

  /** Adding a product with a numeric price adds its price to the total. */
  lemma AddKeepsNumericTotal(s: StoreState, p: Product, numberText: real -> string)
    ensures TotalValue(NumericPrices(Reduce(s, AddProduct(p)).products), numberText) ==
      Formatted(p.price + PriceSum(s.products))
  {
    var after := Reduce(s, AddProduct(p)).products;
    assert after[1..] == s.products;
    NumericTotal(after, numberText);
  }

  /** With the price converted on submit, adding a product puts the number
      the price field denotes at the head of the store, and the total is the
      old total plus that number. */
  lemma CorrectedAddKeepsTotal(s: StoreState, form: ProductForm, clientId: nat, serverFailed: bool,
                               toNumber: string -> NumberValue, isUrl: string -> bool, numberText: real -> string)
    requires FormValid(form, toNumber, isUrl)
    ensures var trace := HandleSubmit(AddMode, form, clientId, serverFailed, toNumber, isUrl);
      var after := Run(s, Dispatched(trace)).products;
      && |after| == |s.products| + 1
      && PriceValue(form.price, toNumber) == Finite(after[0].price)
      && TotalValue(NumericPrices(after), numberText) == Formatted(after[0].price + PriceSum(s.products))
  {
    var q := SubmittedProduct(IntId(clientId), form, toNumber);
    AddDispatches(form, clientId, serverFailed, toNumber, isUrl);
    RunOne(s, AddProduct(q));
    AddKeepsNumericTotal(s, q, numberText);
  }

}

=== FILE: product_details.dfy ===
/** The product details page: which view it renders for a route id, and
    its confirmed delete. `confirm(...)` is the parameter `confirmed`. */
module ProductDetails {

  import opened Options
  import opened Catalog
  import opened ProductsStore
  import opened Auth

  datatype DetailView =
    | DetailLoading
    | DetailError(message: string)
    | NotFound
    | ProductView(product: Product, adminControls: bool)

  /** Loading first, then a non-empty error, then the lookup of the route id;
      Edit and Delete are offered to an admin only. */
  function Decide(s: StoreState, routeId: string, auth: AuthState): (v: DetailView)
    ensures s.loading ==> v == DetailLoading
    ensures !s.loading && ErrorShown(s) ==> v == DetailError(s.error.value)
    ensures !s.loading && !ErrorShown(s) ==>
      (v == NotFound <==> forall i :: 0 <= i < |s.products| ==> IdText(s.products[i].id) != routeId)
    ensures !s.loading && !ErrorShown(s) ==> v == NotFound || v.ProductView?
    ensures v.ProductView? ==>
      && !s.loading && !ErrorShown(s)
      && (exists k :: FirstMatch(s.products, routeId, k) && s.products[k] == v.product)
      && (v.adminControls <==> IsAdmin(auth))
  {
    if s.loading then DetailLoading
    else if ErrorShown(s) then DetailError(s.error.value)
    else match FindByRouteId(s.products, routeId)
      case None => NotFound
      case Some(p) => ProductView(p, IsAdmin(auth))
  }

  datatype DeleteStep = DeleteStep(dispatched: seq<Action>, navigateTo: Option<string>)

  /** `handleDelete`: on confirmation one DELETE_PRODUCT for the product's
      id and a move to the home page; otherwise nothing. */
  function HandleDelete(p: Product, confirmed: bool): (r: DeleteStep)
    ensures confirmed ==> r.dispatched == [DeleteProduct(p.id)] && r.navigateTo == Some("/")
    ensures !confirmed ==> r.dispatched == [] && r.navigateTo.None?
  {
    if confirmed then DeleteStep([DeleteProduct(p.id)], Some("/")) else DeleteStep([], None)
  }

  /** Declining leaves the store as it was. */
  lemma DeclineKeepsStore(s: StoreState, p: Product)
    ensures Run(s, HandleDelete(p, false).dispatched) == s
  {
  }

  /** Deleting the shown product makes its route show "not found". */
  lemma DeleteThenNotFound(s: StoreState, routeId: string, auth: AuthState)
    requires Decide(s, routeId, auth).ProductView?
    requires Decide(s, routeId, auth).product.id.IntId?
    ensures var p := Decide(s, routeId, auth).product;
      Decide(Run(s, HandleDelete(p, true).dispatched), routeId, auth) == NotFound
  {
    var p := Decide(s, routeId, auth).product;
    RunOne(s, DeleteProduct(p.id));
    var after := Reduce(s, DeleteProduct(p.id));
    var k :| FirstMatch(s.products, routeId, k) && s.products[k] == p;
    forall i | 0 <= i < |after.products|
      ensures IdText(after.products[i].id) != routeId
    {
      assert after.products[i] in after.products;
      if IdText(after.products[i].id) == routeId {
        IdTextInjective(after.products[i].id, p.id);
      }
    }
  }

  /** A product whose id is NaN cannot be deleted: `p.id !== NaN` holds for
      every product, so the filter keeps it and the page still shows it. */
  lemma NaNIdSurvivesDelete(s: StoreState, routeId: string, auth: AuthState)
    requires Decide(s, routeId, auth).ProductView?
    requires Decide(s, routeId, auth).product.id.NaNId?
    ensures var p := Decide(s, routeId, auth).product;
      Decide(Run(s, HandleDelete(p, true).dispatched), routeId, auth).ProductView?
  {
    var p := Decide(s, routeId, auth).product;
    RunOne(s, DeleteProduct(p.id));
    DeleteAbsentIsNoOp(s, p.id);
  }

}

=== FILE: products_store.dfy ===
/** The products store: the reducer behind `ProductsProvider`, its initial
    state, and the dispatches of the fetch-on-mount effect. */
module ProductsStore {

  import opened Options
  import opened Seqs
  import opened Catalog

  datatype StoreState = StoreState(products: seq<Product>, loading: bool, error: Option<string>)

  /** `{products: [], loading: false, error: null}`. */
  const Initial := StoreState([], false, None)

  /** The six action types the reducer handles. The source throws on any
      other type; a closed datatype makes such an action unrepresentable. */
  datatype Action =
    | FetchStart
    | FetchSuccess(data: seq<Product>)
    | FetchError(message: string)
    | AddProduct(product: Product)
    | UpdateProduct(product: Product)
    | DeleteProduct(id: ProductId)

  /** `products.map(p => p.id === q.id ? q : p)`. */
  function ReplaceById(ps: seq<Product>, q: Product): (r: seq<Product>)
    ensures |r| == |ps|
    ensures forall i :: 0 <= i < |ps| ==> r[i] == (if SameId(ps[i].id, q.id) then q else ps[i])
  {
    if |ps| == 0 then []
    else [if SameId(ps[0].id, q.id) then q else ps[0]] + ReplaceById(ps[1..], q)
  }

  /** The keep-test of `products.filter(p => p.id !== id)`. */
  function KeepUnless(id: ProductId): Product -> bool {
    (p: Product) => !SameId(p.id, id)
  }

  /** `products.filter(p => p.id !== id)`. */
  function RemoveById(ps: seq<Product>, id: ProductId): (r: seq<Product>)
    ensures forall p :: p in r <==> p in ps && !SameId(p.id, id)
    ensures forall p :: multiset(r)[p] == if SameId(p.id, id) then 0 else multiset(ps)[p]
    ensures IsSubsequence(r, ps)
  {
    FilterIsSubsequence(ps, KeepUnless(id));
    Filter(ps, KeepUnless(id))
  }

  function Reduce(s: StoreState, a: Action): (r: StoreState)
    ensures a.FetchStart? ==> r.loading && r.error.None? && r.products == s.products
    ensures a.FetchSuccess? ==> !r.loading && r.products == a.data && r.error == s.error
    ensures a.FetchError? ==> !r.loading && r.error == Some(a.message) && r.products == s.products
    ensures !(a.FetchStart? || a.FetchSuccess? || a.FetchError?) ==>
      r.loading == s.loading && r.error == s.error
    ensures a.AddProduct? ==>
      |r.products| == |s.products| + 1 && r.products[0] == a.product && r.products[1..] == s.products
    ensures a.UpdateProduct? ==>
      && |r.products| == |s.products|
      && forall i :: 0 <= i < |s.products| ==>
        r.products[i] == (if SameId(s.products[i].id, a.product.id) then a.product else s.products[i])
    ensures a.DeleteProduct? ==>
      && IsSubsequence(r.products, s.products)
      && (forall p :: p in r.products <==> p in s.products && !SameId(p.id, a.id))
      && forall p :: multiset(r.products)[p] == if SameId(p.id, a.id) then 0 else multiset(s.products)[p]
  {
    match a
    case FetchStart => s.(loading := true, error := None)
    case FetchSuccess(data) => s.(loading := false, products := data)
    case FetchError(message) => s.(loading := false, error := Some(message))
    case AddProduct(p) => s.(products := [p] + s.products)
    case UpdateProduct(p) => s.(products := ReplaceById(s.products, p))
    case DeleteProduct(id) => s.(products := RemoveById(s.products, id))
  }

  /** The state after dispatching `actions` in order. A run without fetch
      actions keeps the loading flag and the error, and a run of updates
      alone keeps the number of products. */
  function Run(s: StoreState, actions: seq<Action>): (r: StoreState)
    ensures (forall i :: 0 <= i < |actions| ==> !IsFetch(actions[i])) ==>
      r.loading == s.loading && r.error == s.error
    ensures (forall i :: 0 <= i < |actions| ==> actions[i].UpdateProduct?) ==>
      |r.products| == |s.products|
    decreases |actions|
  {
    if |actions| == 0 then s else Run(Reduce(s, actions[0]), actions[1..])
  }

  predicate IsFetch(a: Action) {
    a.FetchStart? || a.FetchSuccess? || a.FetchError?
  }

  /** Dispatching two batches one after the other is dispatching their
      concatenation. */
  lemma {:induction false} RunAppend(s: StoreState, xs: seq<Action>, ys: seq<Action>)
    ensures Run(s, xs + ys) == Run(Run(s, xs), ys)
    decreases |xs|
  {
    if |xs| == 0 {
      assert xs + ys == ys;
    } else {
      assert (xs + ys)[0] == xs[0];
      assert (xs + ys)[1..] == xs[1..] + ys;
      RunAppend(Reduce(s, xs[0]), xs[1..], ys);
    }
  }

  lemma RunOne(s: StoreState, a: Action)
    ensures Run(s, [a]) == Reduce(s, a)
  {
    assert [a][1..] == [];
  }

  lemma RunTwo(s: StoreState, a: Action, b: Action)
    ensures Run(s, [a, b]) == Reduce(Reduce(s, a), b)
  {
    assert [a, b][1..] == [b];
    RunOne(Reduce(s, a), b);
  }

  /** Updating twice with the same product is the same as updating once. */
  lemma UpdateIdempotent(s: StoreState, q: Product)
    ensures Reduce(Reduce(s, UpdateProduct(q)), UpdateProduct(q)) == Reduce(s, UpdateProduct(q))
  {
    var once := Reduce(s, UpdateProduct(q)).products;
    var twice := Reduce(Reduce(s, UpdateProduct(q)), UpdateProduct(q)).products;
    assert twice == once;
  }

  /** Updating a product whose id is not in the store changes nothing. */
  lemma UpdateAbsentIsNoOp(s: StoreState, q: Product)
    requires FreshId(s.products, q.id)
    ensures Reduce(s, UpdateProduct(q)) == s
  {
    assert Reduce(s, UpdateProduct(q)).products == s.products;
  }

  /** An update keeps every id where it was. */
  lemma UpdateKeepsIds(s: StoreState, q: Product)
    ensures var r := Reduce(s, UpdateProduct(q)).products;
      forall i :: 0 <= i < |r| ==> r[i].id == s.products[i].id
  {
  }

  /** Deleting an id twice is the same as deleting it once. */
  lemma DeleteIdempotent(s: StoreState, id: ProductId)
    ensures Reduce(Reduce(s, DeleteProduct(id)), DeleteProduct(id)) == Reduce(s, DeleteProduct(id))
  {
    FilterTwice(s.products, KeepUnless(id));
  }

  /** Deleting an id that is not in the store changes nothing. */
  lemma DeleteAbsentIsNoOp(s: StoreState, id: ProductId)
    requires FreshId(s.products, id)
    ensures Reduce(s, DeleteProduct(id)) == s
  {
    FilterAllPass(s.products, KeepUnless(id));
  }

  /** After a delete no product with that id is left. */
  lemma DeleteRemovesId(s: StoreState, id: ProductId)
    ensures FreshId(Reduce(s, DeleteProduct(id)).products, id)
  {
    var r := Reduce(s, DeleteProduct(id)).products;
    forall i | 0 <= i < |r|
      ensures !SameId(r[i].id, id)
    {
      assert r[i] in r;
    }
  }

  /** A subsequence holds only elements of the sequence it is taken from. */
  lemma {:induction false} SubsequenceMembers(a: seq<Product>, b: seq<Product>)
    requires IsSubsequence(a, b)
    ensures forall x :: x in a ==> x in b
    decreases |b|
  {
    if |a| > 0 {
      if a[0] == b[0] && IsSubsequence(a[1..], b[1..]) {
        SubsequenceMembers(a[1..], b[1..]);
        assert forall x :: x in a ==> x == a[0] || x in a[1..];
      } else {
        SubsequenceMembers(a, b[1..]);
      }
    }
  }

  /** Deleting elements keeps ids unique. */
  lemma {:induction false} SubsequenceKeepsUniqueIds(a: seq<Product>, b: seq<Product>)
    requires IsSubsequence(a, b) && UniqueIds(b)
    ensures UniqueIds(a)
    decreases |b|
  {
    if |a| > 0 {
      assert UniqueIds(b[1..]) by {
        forall i, j | 0 <= i < j < |b[1..]|
          ensures !SameId(b[1..][i].id, b[1..][j].id)
        {
          assert b[1..][i] == b[i + 1] && b[1..][j] == b[j + 1];
        }
      }
      if a[0] == b[0] && IsSubsequence(a[1..], b[1..]) {
        SubsequenceKeepsUniqueIds(a[1..], b[1..]);
        SubsequenceMembers(a[1..], b[1..]);
        forall j | 1 <= j < |a|
          ensures !SameId(a[0].id, a[j].id)
        {
          assert a[j] == a[1..][j - 1];
          assert a[j] in a[1..];
          var k :| 0 <= k < |b[1..]| && b[1..][k] == a[j];
          assert b[k + 1] == a[j];
        }
        forall i, j | 0 <= i < j < |a|
          ensures !SameId(a[i].id, a[j].id)
        {
          if i > 0 {
            assert a[i] == a[1..][i - 1] && a[j] == a[1..][j - 1];
          }
        }
      } else {
        SubsequenceKeepsUniqueIds(a, b[1..]);
      }
    }
  }

  lemma FilterKeepsUniqueIds(ps: seq<Product>, keep: Product -> bool)
    requires UniqueIds(ps)
    ensures UniqueIds(Filter(ps, keep))
  {
    FilterIsSubsequence(ps, keep);
    SubsequenceKeepsUniqueIds(Filter(ps, keep), ps);
  }

  /** Ids stay unique under every action, provided a fetch delivers unique
      ids and an added product's id is fresh, which is what the client-side
      id from the clock is meant to guarantee. */
  lemma UniqueIdsPreserved(s: StoreState, a: Action)
    requires UniqueIds(s.products)
    requires a.FetchSuccess? ==> UniqueIds(a.data)
    requires a.AddProduct? ==> FreshId(s.products, a.product.id)
    ensures UniqueIds(Reduce(s, a).products)
  {
    match a
    case DeleteProduct(id) =>
      FilterKeepsUniqueIds(s.products, KeepUnless(id));
    case AddProduct(p) =>
      var r := Reduce(s, a).products;
      forall i, j | 0 <= i < j < |r|
        ensures !SameId(r[i].id, r[j].id)
      {
        if i > 0 {
          assert r[i] == s.products[i - 1] && r[j] == s.products[j - 1];
        }
      }
    case _ =>
  }

  /** How the mount-time fetch settled. A failure may carry no message. */
  datatype FetchOutcome = Fetched(data: seq<Product>) | Failed(message: Option<string>)

  const DefaultFetchError := "Failed to fetch products"

  /** `err.message || "Failed to fetch products"`. */
  function FetchErrorText(message: Option<string>): (r: string)
    ensures r != ""
    ensures message.Some? && message.value != "" ==> r == message.value
    ensures !(message.Some? && message.value != "") ==> r == DefaultFetchError
  {
    if message.Some? && message.value != "" then message.value else DefaultFetchError
  }

  /** The dispatches of the `load` effect: FETCH_START, then the outcome.
      The success dispatch happens only while the provider is still mounted;
      the error dispatch is not guarded. */
  function LoadDispatches(outcome: FetchOutcome, mounted: bool): (r: seq<Action>)
    ensures |r| >= 1 && r[0] == FetchStart
    ensures outcome.Fetched? ==> (FetchSuccess(outcome.data) in r <==> mounted)
    ensures !mounted ==> forall a :: a in r ==> !a.FetchSuccess?
    ensures outcome.Failed? ==> FetchError(FetchErrorText(outcome.message)) in r
  {
    match outcome
    case Fetched(data) => if mounted then [FetchStart, FetchSuccess(data)] else [FetchStart]
    case Failed(message) => [FetchStart, FetchError(FetchErrorText(message))]
  }

  /** A successful load from the initial state shows the fetched list. */
  lemma LoadSuccess(data: seq<Product>)
    ensures Run(Initial, LoadDispatches(Fetched(data), true)) == StoreState(data, false, None)
  {
    RunTwo(Initial, FetchStart, FetchSuccess(data));
  }

  /** A failed load leaves an empty list and the error text. */
  lemma LoadFailure(message: Option<string>)
    ensures Run(Initial, LoadDispatches(Failed(message), true)) ==
      StoreState([], false, Some(FetchErrorText(message)))
    ensures Run(Initial, LoadDispatches(Failed(message), false)) ==
      StoreState([], false, Some(FetchErrorText(message)))
  {
    RunTwo(Initial, FetchStart, FetchError(FetchErrorText(message)));
  }

  /** A fetch that succeeds after unmounting leaves the store loading. */
  lemma LoadAfterUnmount(data: seq<Product>)
    ensures Run(Initial, LoadDispatches(Fetched(data), false)) == StoreState([], true, None)
  {
    RunOne(Initial, FetchStart);
  }

  /** A Loading view when `loading`, else an error view when `error` is a
      non-empty text: the guard Home, ProductDetails and AdminDashboard share. */
  predicate ErrorShown(s: StoreState) {
    s.error.Some? && s.error.value != ""
  }

}

=== FILE: protected_route.dfy ===
/** `ProtectedRoute`: what an admin-only route renders. */
module ProtectedRoute {

  import opened Options
  import opened Auth

  /** The Loading view, a replacing redirect to `/login` that remembers the
      location, or the protected children. */
  datatype GuardView = GuardLoading | RedirectToLogin(from: string, replace: bool) | RenderChildren

  function Guard(s: AuthState, location: string): (v: GuardView)
    ensures s.loading ==> v == GuardLoading
    ensures !s.loading && s.user.None? ==> v == RedirectToLogin(location, true)
    ensures !s.loading && s.user.Some? && s.user.value.role != "admin" ==> v == RedirectToLogin(location, true)
    ensures v == RenderChildren <==> !s.loading && IsAdmin(s)
  {
    if s.loading then GuardLoading
    else if s.user.None? || !IsAdmin(s) then RedirectToLogin(location, true)
    else RenderChildren
  }

  /** After the mount effect and a correct login the children render. */
  lemma LoginOpensRoute(stored: Option<User>, location: string)
    ensures Guard(Login(Restore(Mount(stored)), "admin", "admin123").state, location) == RenderChildren
  {
  }

  /** A stored user opens the route after the mount effect exactly when its
      role is "admin"; any other role is sent to the login page. */
  lemma RestoredRoleDecides(u: User, location: string)
    ensures Guard(Restore(Mount(Some(u))), location) == RenderChildren <==> u.role == "admin"
    ensures u.role != "admin" ==> Guard(Restore(Mount(Some(u))), location) == RedirectToLogin(location, true)
  {
  }

  /** After a logout the route redirects to the login page. */
  lemma LogoutClosesRoute(s: AuthState, location: string)
    requires !s.loading
    ensures Guard(Logout(s), location) == RedirectToLogin(location, true)
  {
  }

}

=== FILE: seqs.dfy ===
/** Sequence operations behind the storefront's list handling:
    `Array.prototype.filter`, the insertion order of a `Set`, and the stable
    sort `Array.prototype.sort` performs (ECMAScript 2019 and later). */
module Seqs {

  /** `s.filter(keep)`: the elements that pass, in their original order. */
  function Filter<T(!new)>(s: seq<T>, keep: T -> bool): (r: seq<T>)
    ensures |r| <= |s|
    ensures forall x :: x in r <==> x in s && keep(x)
    ensures forall i :: 0 <= i < |r| ==> keep(r[i])
    ensures forall x :: multiset(r)[x] == if keep(x) then multiset(s)[x] else 0
  {
    if |s| == 0 then []
    else
      assert s == [s[0]] + s[1..];
      if keep(s[0]) then [s[0]] + Filter(s[1..], keep)
      else Filter(s[1..], keep)
  }

  /** `a` is obtained from `b` by deleting elements: the survivors keep
      their relative order. */
  predicate IsSubsequence<T(==)>(a: seq<T>, b: seq<T>)
    decreases |b|
  {
    |a| == 0 || (|b| > 0 && ((a[0] == b[0] && IsSubsequence(a[1..], b[1..])) || IsSubsequence(a, b[1..])))
  }

  lemma {:induction false} FilterIsSubsequence<T(!new)>(s: seq<T>, keep: T -> bool)
    ensures IsSubsequence(Filter(s, keep), s)
  {
    if |s| > 0 {
      FilterIsSubsequence(s[1..], keep);
      if keep(s[0]) {
        assert Filter(s, keep)[1..] == Filter(s[1..], keep);
      }
    }
  }

  /** A filter every element passes returns the sequence itself. */
  lemma {:induction false} FilterAllPass<T(!new)>(s: seq<T>, keep: T -> bool)
    requires forall i :: 0 <= i < |s| ==> keep(s[i])
    ensures Filter(s, keep) == s
  {
    if |s| > 0 {
      FilterAllPass(s[1..], keep);
    }
  }

  /** A filter that rejects nothing new is idempotent. */
  lemma {:induction false} FilterTwice<T(!new)>(s: seq<T>, keep: T -> bool)
    ensures Filter(Filter(s, keep), keep) == Filter(s, keep)
  {
    FilterAllPass(Filter(s, keep), keep);
  }

  predicate Distinct<T(==)>(s: seq<T>) {
    forall i, j :: 0 <= i < j < |s| ==> s[i] != s[j]
  }

  /** The position of the first occurrence of `x` in `s`. */
  function FirstIndex<T(==)>(s: seq<T>, x: T): (k: nat)
    requires x in s
    ensures k < |s| && s[k] == x
    ensures forall j :: 0 <= j < k ==> s[j] != x
  {
    if s[0] == x then 0 else 1 + FirstIndex(s[1..], x)
  }

  /** `[...new Set(s)]`: each element once, in the order it first appears. */
  function Dedup<T(==,!new)>(s: seq<T>): (r: seq<T>)
    ensures forall x :: x in r <==> x in s
    ensures Distinct(r)
    ensures |r| <= |s|
  {
    if |s| == 0 then []
    else
      var d := Dedup(s[..|s| - 1]);
      if s[|s| - 1] in d then d else d + [s[|s| - 1]]
  }

  /** The elements of `Dedup(s)` are ordered by where they first occur in `s`. */
  lemma {:induction false} DedupFirstAppearanceOrder<T(!new)>(s: seq<T>)
    ensures forall i, j :: 0 <= i < j < |Dedup(s)| ==>
      FirstIndex(s, Dedup(s)[i]) < FirstIndex(s, Dedup(s)[j])
  {
    if |s| > 0 {
      var p := s[..|s| - 1];
      var x := s[|s| - 1];
      var d := Dedup(p);
      DedupFirstAppearanceOrder(p);
      forall y | y in p
        ensures FirstIndex(s, y) == FirstIndex(p, y) < |s| - 1
      {
        var k := FirstIndex(p, y);
        assert s[k] == y;
        assert forall j :: 0 <= j < k ==> s[j] == p[j];
      }
      if x !in d {
        assert FirstIndex(s, x) == |s| - 1;
      }
    }
  }

  /** A sequence without repetitions has as many elements as its set. */
  lemma {:induction false} DistinctCardinality<T>(s: seq<T>)
    requires Distinct(s)
    ensures |s| == |set x | x in s|
  {
    if |s| > 0 {
      var p := s[..|s| - 1];
      DistinctCardinality(p);
      assert (set x | x in s) == (set x | x in p) + {s[|s| - 1]};
      assert s[|s| - 1] !in p;
    }
  }

  /** Deduplicating keeps one element per distinct value. */
  lemma DedupCardinality<T(!new)>(s: seq<T>)
    ensures |Dedup(s)| == |set x | x in s|
  {
    DistinctCardinality(Dedup(s));
    assert (set x | x in Dedup(s)) == (set x | x in s);
  }

  ghost predicate Total<T(!new)>(leq: (T, T) -> bool) {
    forall a, b :: leq(a, b) || leq(b, a)
  }

  ghost predicate Transitive<T(!new)>(leq: (T, T) -> bool) {
    forall a, b, c :: leq(a, b) && leq(b, c) ==> leq(a, c)
  }

  predicate Sorted<T>(s: seq<T>, leq: (T, T) -> bool) {
    forall i, j :: 0 <= i < j < |s| ==> leq(s[i], s[j])
  }

  /** Place `x` in front of the first element it does not come after. */
  function Insert<T>(x: T, t: seq<T>, leq: (T, T) -> bool): (r: seq<T>)
    ensures |r| == |t| + 1
    ensures multiset(r) == multiset(t) + multiset{x}
  {
    if |t| == 0 || leq(x, t[0]) then [x] + t
    else
      assert t == [t[0]] + t[1..];
      [t[0]] + Insert(x, t[1..], leq)
  }

  /** A stable insertion sort: `s.sort(cmp)` where `leq(a, b)` means `cmp(a, b) <= 0`.
      An element is placed before every later element it does not exceed, so
      elements that compare equal keep their original order. */
  function SortBy<T>(s: seq<T>, leq: (T, T) -> bool): (r: seq<T>)
    ensures |r| == |s|
    ensures multiset(r) == multiset(s)
  {
    if |s| == 0 then []
    else
      assert s == [s[0]] + s[1..];
      Insert(s[0], SortBy(s[1..], leq), leq)
  }

  lemma {:induction false} InsertSorted<T(!new)>(x: T, t: seq<T>, leq: (T, T) -> bool)
    requires Total(leq) && Transitive(leq)
    requires Sorted(t, leq)
    ensures Sorted(Insert(x, t, leq), leq)
  {
    if |t| > 0 && !leq(x, t[0]) {
      var rest := Insert(x, t[1..], leq);
      InsertSorted(x, t[1..], leq);
      forall y | y in rest
        ensures leq(t[0], y)
      {
        assert y in multiset(rest);
        if y != x {
          assert y in t[1..];
        }
      }
    }
  }

  /** Under a total preorder the result of `SortBy` is sorted. */
  lemma {:induction false} SortBySorted<T(!new)>(s: seq<T>, leq: (T, T) -> bool)
    requires Total(leq) && Transitive(leq)
    ensures Sorted(SortBy(s, leq), leq)
  {
    if |s| > 0 {
      SortBySorted(s[1..], leq);
      InsertSorted(s[0], SortBy(s[1..], leq), leq);
    }
  }

  /** The elements `leq` ranks level with `x`: the ones the comparator
      returns 0 for against `x`. */
  function Equiv<T>(leq: (T, T) -> bool, x: T): T -> bool {
    (y: T) => leq(x, y) && leq(y, x)
  }

  lemma FilterCons<T(!new)>(x: T, t: seq<T>, keep: T -> bool)
    ensures Filter([x] + t, keep) == (if keep(x) then [x] else []) + Filter(t, keep)
  {
    assert ([x] + t)[0] == x;
    assert ([x] + t)[1..] == t;
  }

  /** Any two elements `keep` admits are ordered both ways by `leq`: the
      elements level with one another form such a class. */
  ghost predicate LevelClass<T(!new)>(leq: (T, T) -> bool, keep: T -> bool) {
    forall a, b :: keep(a) && keep(b) ==> leq(a, b)
  }

  lemma TransitiveLevelClass<T(!new)>(leq: (T, T) -> bool, x: T)
    requires Transitive(leq)
    ensures LevelClass(leq, Equiv(leq, x))
  {
    var e := Equiv(leq, x);
    forall a, b | e(a) && e(b)
      ensures leq(a, b)
    {
      assert leq(a, x) && leq(x, b);
    }
  }

  /** Inserting `x0` puts it after every element level with it, so within
      each class of level elements it comes first and the rest keep their order. */
  lemma {:induction false} InsertStable<T(!new)>(x0: T, t: seq<T>, leq: (T, T) -> bool, keep: T -> bool)
    requires LevelClass(leq, keep)
    ensures Filter(Insert(x0, t, leq), keep) ==
      (if keep(x0) then [x0] + Filter(t, keep) else Filter(t, keep))
  {
    if |t| == 0 || leq(x0, t[0]) {
      assert Insert(x0, t, leq) == [x0] + t;
      FilterCons(x0, t, keep);
    } else {
      var rest := Insert(x0, t[1..], leq);
      InsertStable(x0, t[1..], leq, keep);
      assert Insert(x0, t, leq) == [t[0]] + rest;
      FilterCons(t[0], rest, keep);
      FilterHead(t, keep);
      InsertStableStep(Filter(Insert(x0, t, leq), keep), Filter(rest, keep), Filter(t, keep), Filter(t[1..], keep),
                       x0, t[0], keep(x0), keep(t[0]));
    }
  }

  lemma FilterHead<T(!new)>(t: seq<T>, keep: T -> bool)
    requires |t| > 0
    ensures Filter(t, keep) == (if keep(t[0]) then [t[0]] else []) + Filter(t[1..], keep)
  {
    if !keep(t[0]) {
      assert [] + Filter(t[1..], keep) == Filter(t[1..], keep);
    }
  }

  /** The step of `InsertStable` past a head `y` that `x0` does not precede:
      `x0` and `y` are never both in the class, so the filters line up. */
  lemma InsertStableStep<T>(filteredInsert: seq<T>, filteredRest: seq<T>, filteredAll: seq<T>, filteredTail: seq<T>,
                            x0: T, y: T, keepX0: bool, keepY: bool)
    requires filteredInsert == (if keepY then [y] else []) + filteredRest
    requires filteredRest == (if keepX0 then [x0] + filteredTail else filteredTail)
    requires filteredAll == (if keepY then [y] else []) + filteredTail
    requires !(keepX0 && keepY)
    ensures filteredInsert == (if keepX0 then [x0] + filteredAll else filteredAll)
  {
    if !keepY {
      assert filteredInsert == filteredRest;
      assert filteredAll == filteredTail;
    }
  }

  /** `SortBy` is stable: the elements level with any `x` appear in the
      result in the order they had in the input. */
  lemma SortByStable<T(!new)>(s: seq<T>, leq: (T, T) -> bool, x: T)
    requires Transitive(leq)
    ensures Filter(SortBy(s, leq), Equiv(leq, x)) == Filter(s, Equiv(leq, x))
  {
    TransitiveLevelClass(leq, x);
    SortByStableFrom(s, leq, Equiv(leq, x));
  }

  lemma {:induction false} SortByStableFrom<T(!new)>(s: seq<T>, leq: (T, T) -> bool, keep: T -> bool)
    requires LevelClass(leq, keep)
    ensures Filter(SortBy(s, leq), keep) == Filter(s, keep)
  {
    if |s| > 0 {
      SortByStableFrom(s[1..], leq, keep);
      InsertStable(s[0], SortBy(s[1..], leq), leq, keep);
      FilterHead(s, keep);
    }
  }

  /** A comparator that calls every pair equal leaves the order untouched. */
  lemma {:induction false} SortByAllEqual<T>(s: seq<T>, leq: (T, T) -> bool)
    requires forall a, b :: leq(a, b)
    ensures SortBy(s, leq) == s
  {
    if |s| > 0 {
      SortByAllEqual(s[1..], leq);
    }
  }

}

=== FILE: validators.dfy ===
/** `validateProduct`: the per-field checks of the product form. What
    `Number(text)` and `new URL(text)` accept is not modelled; the caller
    supplies both as the oracles `toNumber` and `isUrl`. */
module Validators {

  import opened JsText
  import opened Catalog

  const TitleMessage := "Title must be at least 3 characters."
  const PriceMessage := "Price must be a positive number."
  const CategoryMessage := "Category is required."
  const ImageMessage := "A valid image URL is required."
  const DescriptionMessage := "Description must be at least 10 characters."

  function Message(f: FieldName): string {
    match f
    case Title => TitleMessage
    case Price => PriceMessage
    case Category => CategoryMessage
    case Image => ImageMessage
    case Description => DescriptionMessage
  }

  /** `!data.price`: the empty text, or the number 0 copied from a product. */
  predicate PriceMissing(p: PriceField) {
    p == PriceText("") || p == PriceNumber(0.0)
  }

  /** `Number(data.price)`. */
  function PriceValue(p: PriceField, toNumber: string -> NumberValue): NumberValue {
    match p
    case PriceText(t) => toNumber(t)
    case PriceNumber(x) => Finite(x)
  }

  /** The price field denotes a finite number greater than zero. */
  predicate PositivePrice(p: PriceField, toNumber: string -> NumberValue) {
    PriceValue(p, toNumber).Finite? && PriceValue(p, toNumber).x > 0.0
  }

  predicate AllSpace(s: string) {
    forall i :: 0 <= i < |s| ==> IsSpace(s[i])
  }

  /** Every field passes its check. */
  predicate FormValid(data: ProductForm, toNumber: string -> NumberValue, isUrl: string -> bool) {
    && Utf16Length(Trim(data.title)) >= 3
    && data.price != PriceText("")
    && PositivePrice(data.price, toNumber)
    && !AllSpace(data.category)
    && data.image != "" && isUrl(data.image)
    && Utf16Length(Trim(data.description)) >= 10
  }

  /** The check of each field, as the source writes it: a falsy value, or a
      value that is too short, not a positive number, or not a URL. */
  predicate Fails(data: ProductForm, f: FieldName, toNumber: string -> NumberValue, isUrl: string -> bool) {
    match f
    case Title => data.title == "" || Utf16Length(Trim(data.title)) < 3
    case Price =>
      var price := PriceValue(data.price, toNumber);
      PriceMissing(data.price) || price.NaN? || price.x <= 0.0
    case Category => data.category == "" || Utf16Length(Trim(data.category)) == 0
    case Image => data.image == "" || !isUrl(data.image)
    case Description => data.description == "" || Utf16Length(Trim(data.description)) < 10
  }

  const Fields: set<FieldName> := {Title, Price, Category, Image, Description}

  lemma AllFields()
    ensures forall f: FieldName :: f in Fields
  {
    forall f: FieldName
      ensures f in Fields
    {
      match f
      case Title =>
      case Price =>
      case Category =>
      case Image =>
      case Description =>
    }
  }

  /** A text checked for a minimum trimmed length: the falsy test on the
      empty text adds nothing, since the empty text is short anyway. */
  lemma ShortCheckMeaning(s: string, min: nat)
    requires min > 0
    ensures (s == "" || Utf16Length(Trim(s)) < min) <==> Utf16Length(Trim(s)) < min
  {
    if s == "" {
      assert |Trim(s)| == 0;
    }
  }

  /** The category check fails exactly on a text of white space only. */
  lemma CategoryCheckMeaning(s: string)
    ensures (s == "" || Utf16Length(Trim(s)) == 0) <==> AllSpace(s)
  {
    TrimEmptyIffBlank(s);
  }

  /** The price check fails on the empty text and on anything that is not a
      positive number; the number 0 is caught by the positivity test too. */
  lemma PriceCheckMeaning(p: PriceField, toNumber: string -> NumberValue)
    ensures var price := PriceValue(p, toNumber);
      (PriceMissing(p) || price.NaN? || price.x <= 0.0) <==> p == PriceText("") || !PositivePrice(p, toNumber)
  {
  }

  /** What each check amounts to once the falsy-value test is folded into the rest. */
  lemma FailsMeaning(data: ProductForm, toNumber: string -> NumberValue, isUrl: string -> bool)
    ensures Fails(data, Title, toNumber, isUrl) <==> Utf16Length(Trim(data.title)) < 3
    ensures Fails(data, Price, toNumber, isUrl) <==> data.price == PriceText("") || !PositivePrice(data.price, toNumber)
    ensures Fails(data, Category, toNumber, isUrl) <==> AllSpace(data.category)
    ensures Fails(data, Image, toNumber, isUrl) <==> data.image == "" || !isUrl(data.image)
    ensures Fails(data, Description, toNumber, isUrl) <==> Utf16Length(Trim(data.description)) < 10
  {
    TitleFailsMeaning(data, toNumber, isUrl);
    PriceFailsMeaning(data, toNumber, isUrl);
    CategoryFailsMeaning(data, toNumber, isUrl);
    DescriptionFailsMeaning(data, toNumber, isUrl);
  }

  lemma TitleFailsMeaning(data: ProductForm, toNumber: string -> NumberValue, isUrl: string -> bool)
    ensures Fails(data, Title, toNumber, isUrl) <==> Utf16Length(Trim(data.title)) < 3
  {
    ShortCheckMeaning(data.title, 3);
  }

  lemma PriceFailsMeaning(data: ProductForm, toNumber: string -> NumberValue, isUrl: string -> bool)
    ensures Fails(data, Price, toNumber, isUrl) <==> data.price == PriceText("") || !PositivePrice(data.price, toNumber)
  {
    PriceCheckMeaning(data.price, toNumber);
  }

  lemma CategoryFailsMeaning(data: ProductForm, toNumber: string -> NumberValue, isUrl: string -> bool)
    ensures Fails(data, Category, toNumber, isUrl) <==> AllSpace(data.category)
  {
    CategoryCheckMeaning(data.category);
  }

  lemma DescriptionFailsMeaning(data: ProductForm, toNumber: string -> NumberValue, isUrl: string -> bool)
    ensures Fails(data, Description, toNumber, isUrl) <==> Utf16Length(Trim(data.description)) < 10
  {
    ShortCheckMeaning(data.description, 10);
  }

  /** `validateProduct(data)`: a map from each failing field to its message. */
  function ValidateProduct(data: ProductForm, toNumber: string -> NumberValue, isUrl: string -> bool)
    : (errors: map<FieldName, string>)
    ensures forall f :: f in errors <==> Fails(data, f, toNumber, isUrl)
    ensures forall f :: f in errors ==> errors[f] == Message(f)
  {
    AllFields();
    map f | f in Fields && Fails(data, f, toNumber, isUrl) :: Message(f)
  }

  /** The error map, field by field: a title of fewer than three characters
      after trimming, a price that is missing or not a positive number, a
      category of white space only, a missing or unparseable image URL, a
      description of fewer than ten characters after trimming. The map is
      empty exactly when every field passes. */
  lemma ValidateProductMeaning(data: ProductForm, toNumber: string -> NumberValue, isUrl: string -> bool)
    ensures Title in ValidateProduct(data, toNumber, isUrl) <==> Utf16Length(Trim(data.title)) < 3
    ensures Price in ValidateProduct(data, toNumber, isUrl)
      <==> data.price == PriceText("") || !PositivePrice(data.price, toNumber)
    ensures Category in ValidateProduct(data, toNumber, isUrl) <==> AllSpace(data.category)
    ensures Image in ValidateProduct(data, toNumber, isUrl) <==> data.image == "" || !isUrl(data.image)
    ensures Description in ValidateProduct(data, toNumber, isUrl) <==> Utf16Length(Trim(data.description)) < 10
    ensures ValidateProduct(data, toNumber, isUrl) == map[] <==> FormValid(data, toNumber, isUrl)
  {
    FailsMeaning(data, toNumber, isUrl);
    var errors := ValidateProduct(data, toNumber, isUrl);
    assert Title in errors <==> Fails(data, Title, toNumber, isUrl);
    assert Price in errors <==> Fails(data, Price, toNumber, isUrl);
    assert Category in errors <==> Fails(data, Category, toNumber, isUrl);
    assert Image in errors <==> Fails(data, Image, toNumber, isUrl);
    assert Description in errors <==> Fails(data, Description, toNumber, isUrl);
    NoErrorsIffValid(data, toNumber, isUrl);
  }

  /** Lengths are counted in UTF-16 code units: a title of one emoji and
      one letter is three units long and passes the title check. */
  lemma SurrogatePairTitleAccepted(data: ProductForm, toNumber: string -> NumberValue, isUrl: string -> bool)
    requires data.title == "\U{1F600}a"
    ensures Title !in ValidateProduct(data, toNumber, isUrl)
  {
    var s := data.title;
    assert |s| == 2 && s[0] == '\U{1F600}' && s[1] == 'a';
    assert TrimStart(s) == s;
    assert TrimEnd(s) == s;
    assert s[1..][1..] == [];
    assert Utf16Length(s[1..]) == 1;
    assert Utf16Length(s) == 3;
    FailsMeaning(data, toNumber, isUrl);
  }

  /** The error map is empty exactly when every field passes. */
  lemma NoErrorsIffValid(data: ProductForm, toNumber: string -> NumberValue, isUrl: string -> bool)
    ensures ValidateProduct(data, toNumber, isUrl) == map[] <==> FormValid(data, toNumber, isUrl)
  {
    FailsMeaning(data, toNumber, isUrl);
    var errors := ValidateProduct(data, toNumber, isUrl);
    if errors == map[] {
      assert !Fails(data, Title, toNumber, isUrl);
      assert !Fails(data, Price, toNumber, isUrl);
      assert !Fails(data, Category, toNumber, isUrl);
      assert !Fails(data, Image, toNumber, isUrl);
      assert !Fails(data, Description, toNumber, isUrl);
    } else {
      var f :| f in errors;
      assert Fails(data, f, toNumber, isUrl);
      match f
      case Title =>
      case Price =>
      case Category =>
      case Image =>
      case Description =>
    }
  }

  /** Whether a field has an error depends on that field's value alone. */
  lemma ValidationIsPerField(a: ProductForm, b: ProductForm, toNumber: string -> NumberValue, isUrl: string -> bool)
    ensures var ea, eb := ValidateProduct(a, toNumber, isUrl), ValidateProduct(b, toNumber, isUrl);
      && (a.title == b.title ==> (Title in ea <==> Title in eb))
      && (a.price == b.price ==> (Price in ea <==> Price in eb))
      && (a.category == b.category ==> (Category in ea <==> Category in eb))
      && (a.image == b.image ==> (Image in ea <==> Image in eb))
      && (a.description == b.description ==> (Description in ea <==> Description in eb))
  {
    ValidateProductMeaning(a, toNumber, isUrl);
    ValidateProductMeaning(b, toNumber, isUrl);
  }

}
